=== FILE: README.md ===
# kubus core in Dafny

This project models the logic that kubus layers over its CouchDB driver. kubus is a small document-database
access layer with three parts: a connection singleton, an active-record model base class, and a view class that
bundles map/reduce/list/show functions into design documents. The driver itself is modelled as an abstract store:
a map from document id to document (`Store.Db`). Each store operation applies CouchDB's revision check as a single
database would, or fails with an error that the transport injects (`Store.Link`). CouchDB's other document validation
is not modelled, and the reply bodies differ; "## Left out" lists both.
Every operation here is a pure function. It returns the new store and the trace of what happened: driver calls,
promise settlement and hook dispatches, in order.

Modules, following the source files:

- `Js` (`js.dfy`): JavaScript values, truthiness, `String(v)` and property reads.
- `Results` (`results.dfy`): `Option` and `Result`.
- `Store` (`store.dfy`): the abstract database. It has get, insert and destroy with CouchDB's revision check.
- `View` (`view.dfy`), from view/index.js: the design-document builder. It covers the registries,
  `_prepareFunctionString`, `designDocument()` and the `getKey`/`getKeys` option merge.
- `Sync` (`sync.dfy`), from view/createAllViews.js: the glob pattern and design-document reconciliation.
- `Model` (`model.dfy`), from model/index.js: `save`, `delete`, static `get`, `clone` and `attach`.
- `Connection` (`connection.dfy`), from db/index.js: the singleton as a state machine over an optional handle.
- `Setup` (`setup.dfy`), from index.js: option validation and the order of the two setup effects.

The model follows the code where it differs from the library's documented design:
- A configured connection call replaces an existing instance. It does not ignore the new config. Modules that bound the old instance at load time keep it (see "## Left out").
- `save` runs no validation.
- `clone` asks the server to copy the document to the id `"newid"`.
- Static `get` resolves with the raw body, not with a reconstructed instance.
- The queries do not check that the named view exists.
- As written, the reconciliation treats every get or destroy failure as "insert", not only 404.

Four places in the source are evidently wrong (see "## Findings"). Each is modelled twice: once as written, with a
lemma showing the discrepancy, and once corrected. The operations built on them are modelled the same way: the
constructor, `save` and the synchronisation loop each exist as written and with the correction applied.

## Model

| member | source | states |
|---|---|---|
| View.LetterRunLength | view/index.js:179 | the prefix `/^[a-z]+()/i` matches (the empty group changes nothing): every character before it is an ASCII letter and the next one is not |
| View.PrepareFunctionString | view/index.js:177-183 | a source starting with a letter has its maximal leading letter run replaced by "function" and keeps the rest; any other source is unchanged |
| View.PrepareIdempotent | view/index.js:177-183 | preparing an already prepared source gives the same text |
| View.NewView | view/index.js:11-22 | construction succeeds exactly when map, list and show are functions and reduce is a function or absent, and otherwise fails with the first failing check's error (map, reduce, list, show in that order); the id is "_design/" + class name; "main" is registered in all three registries from the class's members, with the reduce under its own source text as `registerView` stores it |
| View.NewViewIntended | view/index.js:11-22 | the constructor over the corrected registration fails exactly as the one as written does and builds the same builder, except that the main view keeps its reduce under "reduce" |
| View.PlaceholderView | view/index.js:19-29 | with the inherited placeholders the main view holds exactly "map" = "function(doc) {}" and, under the key "reduce(key, values, rereduce) {}", the rewritten reduce; there is no "reduce" property |
| View.RegisterView | view/index.js:124-136 | throws the name/map/reduce TypeErrors in that order exactly when the arguments have the wrong types, leaving the builder as it was; otherwise sets only view `name` to the prepared map plus the prepared reduce under its own source key, and keeps lists, shows and id |
| View.RegisterList | view/index.js:144-151 | throws for a non-string name or non-function list; otherwise sets only list `name` to the prepared source |
| View.RegisterShow | view/index.js:159-166 | throws for a non-string name or non-function show; otherwise sets only show `name` to the prepared source |
| View.RegisterViewIntended | view/index.js:124-136 | the corrected registration throws the same TypeErrors in the same order; otherwise it sets only view `name`, to the prepared map plus, when a reduce is given, the prepared reduce under "reduce" |
| View.ReduceKeyFinding | view/index.js:134-135 | as written and corrected registration accept the same arguments and agree without a reduce; with a reduce the entry as written has no "reduce" property |
| View.DecodeEncode | view/index.js:36-46 | a design document read back from its JSON form is the design document that was encoded |
| View.DesignDocument | view/index.js:36-46 | the result has exactly `_id` = docId, `language` = "javascript", `views`, `lists` and `shows`, and it decodes to exactly the builder's three registries |
| View.GetKey | view/index.js:55-58 | the request targets the builder's design doc, with the view name defaulting to "main"; its parameters are the caller's options plus `key`, and the caller's values win |
| View.GetKeys | view/index.js:67-70 | as `GetKey`, with the parameter `keys` |
| Sync.OptionOr | view/createAllViews.js:6-7 | a falsy option gives the default; a non-empty string option is used as given |
| Sync.GlobPattern | view/createAllViews.js:5-9 | the pattern is folder, then "/**/*", then suffix; a null or undefined config throws a TypeError |
| Sync.DefaultPattern | view/createAllViews.js:6-7 | with both options falsy the pattern is "dbviews" + "/**/*" + ".view.js" |
| Sync.DesignDocumentUnsaved | view/index.js:35-45 | a built design document has a string `_id`, which is the builder's id, and no `_rev` |
| Sync.StoredDesignDocDecodes | view/createAllViews.js:11-12 | a built design document stored at any revision reads back as the builder's three registries |
| Sync.UnableToCreate | view/createAllViews.js:34 | the insert error is an Error whose message starts "Unable to create " followed by the document id |
| Sync.CreateDesignDoc | view/createAllViews.js:31-35 | one insert call; a document without a string id is never created; an unsaved document is created exactly when the link forwards the insert and the id has no stored revision, and then the store maps the id to the document at the new revision; otherwise the store is unchanged and the error names the document |
| Sync.HandleDesignDoc | view/createAllViews.js:17-29 | the get comes first and the insert last; a failed get (any error) is followed directly by the insert with no destroy; a found document is destroyed at its fetched `_id`/`_rev` before the insert; the error branch of line 27 is never reached |
| Sync.HandleDesignDocWrites | view/createAllViews.js:17-35 | for an unsaved document on a well-formed store, a created outcome leaves the store equal to the old one with the id mapped to exactly the new document at the new revision; a healthy link always creates |
| Sync.GetFailureAlwaysInserts | view/createAllViews.js:25-27 | even a non-404 get failure leads to the insert |
| Sync.ReconcileIdempotent | view/createAllViews.js:17-35 | a second reconciliation over a healthy link, at any new revision, goes through get, destroy at the first run's revision and insert; it changes only the document's revision, so the store keeps the same content, and it is the very same store exactly when the new revision equals the old |
| Sync.HandleDesignDocIntended | view/createAllViews.js:17-29 | the corrected reconciliation inserts after a 404 only; any other get failure aborts and makes no further call; an abort writes nothing and never inserts; every outcome other than creation carries an error naming the document |
| Sync.IntendedAgreesWhenHealthy | view/createAllViews.js:17-29 | over a healthy link on a well-formed store the corrected and as-written reconciliations coincide |
| Sync.AssignmentBugDiffers | view/createAllViews.js:26-27 | on every non-404 get failure the code as written inserts while the corrected one aborts |
| Sync.SyncAll | view/createAllViews.js:9-14 | the loop as written: one outcome per discovered design document, in order; none aborts, and each one not created fails with an insert error naming its own document |
| Sync.SyncAllIntended | view/createAllViews.js:9-14 | the loop over the corrected reconciliation: one outcome per document; each one not created, by abort or insert error, carries an error naming its own document |
| Sync.SyncAllIntendedAgreesWhenHealthy | view/createAllViews.js:9-14 | for design documents with distinct ids, over a healthy link on a well-formed store, the corrected loop and the loop as written give the same store, calls and outcomes |
| Sync.SyncAllWrites | view/createAllViews.js:9-14 | for unsaved documents with distinct ids, over a healthy link and a well-formed store, every document is created and the store ends as the documents written over it, each at its own revision |
| Sync.OverlayIsUnion | view/createAllViews.js:9-14 | writing the documents in turn equals overlaying the store with what they write, the last one winning |
| Sync.SyncAllIdempotent | view/createAllViews.js:9-14 | for documents with distinct ids, synchronising them a second time, at any new revisions, leaves a store with the same ids and the same documents up to their revisions, and the very same store when the revisions repeat |
| Sync.WrittenBySameContent | view/createAllViews.js:9-14 | the same documents written at two runs of revisions leave the same content |
| Sync.SyncAllStoresEveryDocument | view/createAllViews.js:9-14 | in the sequential reading, what the documents write holds each one whose id no later document shares, under its id and at its own new revision; with distinct ids that is every document |
| Sync.SharedIdSecondInsertConflicts | view/createAllViews.js:10-34 | when two discovered documents share an id that is not stored, both gets answer 404, so both insert; the first insert creates the document and the second fails with a 409 and an error naming it |
| Model.WithId | model/index.js:18 | a truthy `_id` is kept; otherwise `_id` becomes the fresh id and every other field is kept |
| Model.SaveHook | model/index.js:24-25 | as written: onCreate exactly when the snapshot had a truthy `_rev`, otherwise onUpdate |
| Model.IntendedSaveHook | model/index.js:105-117 | corrected: onCreate exactly when the snapshot had no revision |
| Model.SaveHookInverted | model/index.js:24-25 | the hook fired as written is never the intended one |
| Model.Save | model/index.js:15-30 | an existing truthy id is never overwritten; the insert is the first call; a store error rejects and fires no hook; on success the promise resolves first, then exactly one of onCreate/onUpdate with the pre-save snapshot (onCreate exactly when it had a truthy `_rev`, the selection as written), then onCreateOrUpdate once, and the store holds the instance at the new revision |
| Model.SaveIntended | model/index.js:15-30 | save with the corrected hook selection: the same store, instance and trace as `save` except the hook after the resolution, which is onCreate exactly when the snapshot had no truthy `_rev` |
| Model.SaveNewInstance | model/index.js:17-26 | a new instance saved over a healthy link is stored with all its fields, and onUpdate (as written) fires |
| Model.ResaveConflicts | model/index.js:20-23 | the new revision is not copied into the instance, so saving it again is rejected with a conflict and fires no hook |
| Model.Delete | model/index.js:36-51 | without a truthy `_rev` and `_id` it rejects with "Document hasn't been saved yet" and makes no store call; otherwise it destroys at the instance's id and revision and either resolves and then fires onDelete, or rejects with the store's error and no hook |
| Model.DeleteAfterFirstSaveRefused | model/index.js:38-41 | an instance that has just been saved for the first time is refused by delete without a store call |
| Model.DeleteStored | model/index.js:43-48 | deleting at the stored revision removes the document, and onDelete is the last event |
| Model.GetTyped | model/index.js:131-142 | the get is the one call; resolves with the body exactly when the fetch succeeds and its `type` is loosely equal (`==`) to the class's `_type`; otherwise rejects with the store error or "Not same type as class" |
| Model.BaseClassGetsOnlyUntyped | model/index.js:136 | the base class has no `_type`, so a fetched document resolves exactly when its `type` is undefined or null, and a document with a string `type` is rejected |
| Model.SubclassGetsOnlyItsType | model/index.js:136 | with a string `_type`, a fetched document resolves exactly when its `type` is that same string |
| Model.SaveThenGet | model/index.js:131-142 | a new instance saved over a healthy link is found by the typed get under the generated id, with all its fields |
| Model.Clone | model/index.js:57-64 | as written: copy to "newid"; a successful copy rejects with the null error and a failed one resolves |
| Model.CloneIntended | model/index.js:57-64 | corrected: a successful copy resolves with its headers and a failed one rejects with the store's error |
| Model.CloneInverted | model/index.js:60-61 | the copy as written resolves exactly when the corrected one rejects |
| Model.Attach | model/index.js:73-81 | the attachment insert receives the instance's current `_id` and `_rev` with the file name, data and content type, and the promise settles as the driver replies |
| Connection.Connect | db/index.js:14-25 | no instance and no config returns false and changes nothing; an instance and no config returns that same instance; a config always makes a new handle from its url and name, stores it, returns it and creates the database |
| Connection.BareCallReturnsConfigured | db/index.js:16-24 | after a configured call, a bare call returns the handle it made, keeps the state and has no effect |
| Connection.ConfigReplacesInstance | db/index.js:14-24 | a second configured call returns a different handle that carries the new config |
| Setup.Setup | index.js:3-13 | succeeds exactly for truthy options with non-empty string url and name; the blank-options error comes first, then the url TypeError, then the name TypeError; on success the connection is configured first and view synchronisation second, with the glob pattern of the options |
| Setup.UrlCheckedFirst | index.js:6-9 | options with a bad url report the url even when the name is bad too |
| Setup.SetupThenBareConnect | index.js:11 | after setup every bare database request receives the handle setup made |

## Left out

- The nano driver and HTTP transport are out. The store is an abstract map with CouchDB's revision check, and transport failures are injected per operation by `Store.Link`. Revisions and uuids are parameters.
- `promisifyNano` (db/index.js:32-49) is out. It wraps a library that is not part of this model.
- Filesystem discovery is out: glob, `require(file)` and `fs`. The JSON objects that the discovered files' `designDocument()` returns are a parameter of `Sync.SyncAll`.
- `Function.prototype.toString` is out. Functions are represented by their source text.
- Promise scheduling and unhandled rejections are out. The loop at view/createAllViews.js:10-13 does not wait for `handleDesignDoc`, so every get is sent before any destroy or insert; the model runs the documents one after another. For distinct ids the order changes nothing. For a shared id it does: in the program both gets see the same stored state, and for an id not yet stored the second insert always fails with 409 (`Sync.SharedIdSecondInsertConflicts`), while the sequential `Sync.SyncAll` destroys the first and creates both. An insert error at view/createAllViews.js:34 is thrown inside a promise callback; it is recorded as the outcome `InsertFailed`.
- Sync.SyncAllWrites: holds only for documents with distinct ids (`Sync.DistinctIds`), because for a shared id the sequential reading it rests on is not what the program does.
- Sync.SyncAllIdempotent: holds only for documents with distinct ids, for the same reason.
- Sync.SyncAllIntendedAgreesWhenHealthy: holds only for documents with distinct ids. For a shared, stored id, one of the program's two destroys gets 409; the code as written then inserts and the corrected code aborts.
- The name-binding ReferenceErrors in model/index.js are out: `_` vs `lodash`, `self`, `err` vs `error`, `documetnId`, the bare `onCreateOrUpdate`/`onDelete`, and `db` being the module function rather than its instance. The model follows the evident control flow.
- `query`, `raw`, `getList` and `getShow` (view/index.js:80-115) are out. They are pass-throughs to the driver. `query` reads an undefined `key` and a misspelled `starkey`, and `getList` ignores its view and list arguments.
- `getAttachment` (model/index.js:88-95) is out. It is a pass-through.
- The validation adapter and `setValidation` are out. They are not in the modelled source.
- Aliasing is out. `designDocument()` returns the live registry objects, so a later registration shows up in an earlier result. Values here are immutable, which makes every call a snapshot.
- JSON serialisation is out. Undefined-valued or function-valued fields are not dropped when a document is stored, and nano's stringification of a non-string `_id` in a URL is modelled as `String(v)`.
- Store.Destroy: the reply is `{ok, id}`. CouchDB's reply to a delete also carries the tombstone's new `rev`; nothing in the core reads it, but `Model.Delete` resolves with the reply that lacks it.
- The key `"__proto__"` is out. The registries and `Object.assign` are modelled as maps, so registering a view, list or show named `"__proto__"` adds an entry. In JavaScript that assignment sets the registry object's prototype instead, and the name never reaches `designDocument()`'s JSON.
- Store.Insert: checks only that `_id` is a string and that `_rev` is the current revision. CouchDB also answers 400 for an id starting with `_` outside the reserved `_design/` and `_local/` prefixes, 400 "Invalid rev format" for a malformed `_rev` (the model answers 409 Conflict), and 400 for an unknown top-level member starting with `_`. None of these are modelled.
- Model.GetTyped: the class's `_type` is a parameter (`Undefined` for the base class, which defines none). `Js.LooseEquals` follows JavaScript's `==` for `null`, `undefined` and same-type primitives. Across different non-nullish types it compares structurally, so `1 != "1"` holds here although JavaScript finds them equal; objects compare by content, not by reference.
- View.GetKey: an `options` argument that is neither omitted nor a plain object is not modelled. `Object.assign` would copy a string's characters under index keys. The `Db` handle is not modelled either: view/index.js:1 binds it once, when the module first loads. A builder module loaded before `setup` holds `false`, and its `getKey` then throws a TypeError (`Db.view` is not a function); the model always returns the request.
- View.GetKeys: the same load-time `Db` binding is not modelled, so the TypeError for a module loaded before `setup` is not modelled either.
- The load-time binding in view/createAllViews.js:3 is out. That module keeps the handle it bound on first load. A second `setup` replaces the connection singleton (`Connection.ConfigReplacesInstance`), but the second synchronisation still writes through the first handle. `Setup.Setup` passes the synchronisation no handle, and `Sync.SyncAll` works on whichever store it is given.
- Numbers are integers, so NaN, fractions and `-0` are not modelled. Property reads on strings, arrays and functions (such as `length` or a function's `name`) read as undefined.

## Findings

| source | as written | input that shows it | evidently intended | confidence | as-written member | corrected member |
|---|---|---|---|---|---|---|
| view/index.js:135 | `this[_views][name][reduce] = ...` stores the reduce under a key equal to the reduce's source text | `registerView("v", map, function(k, v) {})` gives an entry with keys "map" and "function(k, v) {}", and no "reduce" | `this[_views][name].reduce = ...` | high; not executed | View.RegisterView | View.RegisterViewIntended |
| view/createAllViews.js:26 | `if (err.statusCode = 404)` assigns, so every get or destroy failure inserts and line 27 never runs | a get failing with status 500 is followed by an insert | `===`: insert only after a 404, otherwise abort with the error | high; not executed | Sync.HandleDesignDoc | Sync.HandleDesignDocIntended |
| model/index.js:24-25 | `if (before._rev) onCreate else onUpdate` | saving a new instance (no `_rev`) fires onUpdate | onCreate for a document without a revision, as the comments at lines 105-117 say | high; not executed | Model.SaveHook | Model.IntendedSaveHook |
| model/index.js:60 | `if (!err) reject(err); else resolve(headers)` | a successful copy rejects with `null` | reject on error, resolve otherwise | high; not executed | Model.Clone | Model.CloneIntended |

The operations built on these are modelled both ways too. `View.NewView`, `Model.Save` and `Sync.SyncAll` compose the
as-written members, as the source does. `View.NewViewIntended`, `Model.SaveIntended` and `Sync.SyncAllIntended`
compose the corrected ones. `Model.Clone` and `Model.CloneIntended` stand alone, because nothing in the core builds
on `clone`.

=== FILE: connection.dfy ===
/** The connection singleton of db/index.js: a module-level instance that a
    configured call creates (or replaces) and a bare call hands back. */
module Connection {
  import opened Results
  import opened Js

  /** A database handle, made by `nano(config.url).use(config.name)`.
      `serial` tells handles made by different calls apart, as object
      identity does in JavaScript. */
  datatype Handle = Handle(url: Value, name: Value, serial: nat)

  /** The module-level `instance`, and how many handles have been made. */
  datatype State = State(instance: Option<Handle>, made: nat) {
    /** Every existing handle was made before the current count. */
    predicate Valid() {
      instance.Some? ==> instance.value.serial < made
    }
  }

  const Initial := State(None, 0)

  /** What the exported function returns: `false`, or the instance. */
  datatype Reply = NotConfigured | Db(handle: Handle)

  /** The effect of a configured call: `nano.db.create(config.name)`. */
  datatype Effect = CreateDatabase(url: Value, name: Value)

  datatype Connected = Connected(state: State, reply: Reply, effects: seq<Effect>)

  /** The exported function called with `config`. */
  function Connect(s: State, config: Value): (r: Connected)
    ensures s.instance.None? && !Truthy(config) ==> r == Connected(s, NotConfigured, [])
    ensures s.instance.Some? && !Truthy(config) ==> r == Connected(s, Db(s.instance.value), [])
    ensures Truthy(config) ==>
      && r.reply.Db?
      && r.state.instance == Some(r.reply.handle)
      && r.reply.handle.url == Prop(config, "url") && r.reply.handle.name == Prop(config, "name")
      && r.effects == [CreateDatabase(Prop(config, "url"), Prop(config, "name"))]
      && (s.Valid() && s.instance.Some? ==> r.reply.handle != s.instance.value)
    ensures s.Valid() ==> r.state.Valid()
  {
    if s.instance.None? && !Truthy(config) then Connected(s, NotConfigured, [])
    else if s.instance.Some? && !Truthy(config) then Connected(s, Db(s.instance.value), [])
    else
      var h := Handle(Prop(config, "url"), Prop(config, "name"), s.made);
      Connected(State(Some(h), s.made + 1), Db(h), [CreateDatabase(h.url, h.name)])
  }

  /** Once a configured call has run, a bare call returns the handle it
      made, keeps the state as it is and has no effect; so every later bare
      call does the same. */
  lemma BareCallReturnsConfigured(s: State, config: Value)
    requires Truthy(config)
    ensures var c := Connect(s, config);
      Connect(c.state, Undefined) == Connected(c.state, c.reply, [])
  {
  }

  /** A second configured call replaces the instance instead of ignoring the
      new config: the handle returned is new and carries the new config. */
  lemma ConfigReplacesInstance(config1: Value, config2: Value)
    requires Truthy(config1) && Truthy(config2)
    ensures var first := Connect(Initial, config1);
      var second := Connect(first.state, config2);
      && second.reply != first.reply
      && second.reply.handle.url == Prop(config2, "url")
      && second.state.instance == Some(second.reply.handle)
  {
  }
}

=== FILE: js.dfy ===
/** The JavaScript values the library inspects: the arguments it type-checks,
    the option objects it reads and the documents it hands to the store. */
module Js {

  /** A JavaScript value. Numbers are integers (NaN and fractions are not
      modelled); a function is known only by its source text, which is what
      `Function.prototype.toString` yields. */
  datatype Value =
    | Undefined
    | Null
    | Bool(b: bool)
    | Num(n: int)
    | Str(s: string)
    | Fn(source: string)
    | Arr(items: seq<Value>)
    | Obj(fields: map<string, Value>)

  /** JavaScript truthiness, as used by `!x` and `x || y`. */
  predicate Truthy(v: Value) {
    match v
    case Undefined => false
    case Null => false
    case Bool(b) => b
    case Num(n) => n != 0
    case Str(s) => s != ""
    case _ => true
  }

  /** The property read `v.key` on a value that is neither null nor undefined.
      Only plain objects carry named properties here. */
  function Prop(v: Value, key: string): Value {
    if v.Obj? && key in v.fields then v.fields[key] else Undefined
  }

  /** `null` or `undefined`: the two values that are loosely equal to each other. */
  predicate Nullish(v: Value) {
    v.Undefined? || v.Null?
  }

  /** The loose comparison `a == b` (and so `a != b`) for the values the library
      compares: `null` and `undefined` equal each other and nothing else, and two
      primitives of one type compare by value. Across two different non-nullish
      types, and for objects, the comparison here is structural. */
  predicate LooseEquals(a: Value, b: Value) {
    if Nullish(a) || Nullish(b) then Nullish(a) && Nullish(b) else a == b
  }

  /** The two error classes the library throws. */
  datatype ErrorKind = PlainError | TypeError

  datatype JsError = JsError(kind: ErrorKind, message: string)

  function DigitChar(d: nat): char
    requires d < 10
  {
    "0123456789"[d]
  }

  function NatDigits(n: nat): (r: string)
    ensures |r| > 0
    decreases n
  {
    if n < 10 then [DigitChar(n)] else NatDigits(n / 10) + [DigitChar(n % 10)]
  }

  /** The decimal text of an integer, as `String(n)` prints it. */
  function DecimalString(n: int): string {
    if n < 0 then "-" + NatDigits(-n) else NatDigits(n)
  }

  /** Joins the parts with commas, as `Array.prototype.join` does. */
  function JoinWithCommas(parts: seq<string>): string {
    if |parts| == 0 then ""
    else if |parts| == 1 then parts[0]
    else parts[0] + "," + JoinWithCommas(parts[1..])
  }

  /** `String(v)`: the text a template literal or a URL builder produces. */
  function ToJsString(v: Value): string
    decreases v
  {
    match v
    case Undefined => "undefined"
    case Null => "null"
    case Bool(b) => if b then "true" else "false"
    case Num(n) => DecimalString(n)
    case Str(s) => s
    case Fn(source) => source
    case Arr(items) =>
      JoinWithCommas(seq(|items|, i requires 0 <= i < |items| =>
        if items[i].Undefined? || items[i].Null? then "" else ToJsString(items[i])))
    case Obj(_) => "[object Object]"
  }
}

=== FILE: model.dfy ===
/** The document model of model/index.js: save with client-side id
    assignment and lifecycle hooks, guarded delete, the static typed get, and
    the attachment and copy pass-throughs. Each operation yields the store it
    leaves and the trace of what it did: driver calls, the settling of the
    returned promise, and hook dispatches, in order. */
module Model {
  import opened Results
  import opened Js
  import opened Store

  /** A model instance: its own enumerable fields (`_id`, `_rev`, `type` and
      the domain fields), which is what the driver serialises. */
  type Instance = Doc

  /** Why a returned promise rejects. */
  datatype Reason =
    | Thrown(error: JsError)
    | StoreFailure(storeError: StoreError)
    | NullReason

  /** One observable step of an operation. */
  datatype Event =
    | StoreCall(call: Call)
    | Resolved(value: Value)
    | Rejected(reason: Reason)
    | OnCreate(before: Instance, after: Instance)
    | OnUpdate(before: Instance, after: Instance)
    | OnCreateOrUpdate(before: Instance, after: Instance)
    | OnDelete(doc: Instance)
  {
    predicate IsHook() {
      OnCreate? || OnUpdate? || OnCreateOrUpdate? || OnDelete?
    }
  }

  predicate NoHooks(trace: seq<Event>) {
    forall i | 0 <= i < |trace| :: !trace[i].IsHook()
  }

  predicate NoStoreCalls(trace: seq<Event>) {
    forall i | 0 <= i < |trace| :: !trace[i].StoreCall?
  }

  /** The store after an operation, the instance, and the trace. */
  datatype Step = Step(db: Db, instance: Instance, trace: seq<Event>)

  // ---------------------------------------------------------------------
  // save

  /** Line 18: a fresh id only when `_id` is falsy. */
  function WithId(m: Instance, freshId: string): (r: Instance)
    ensures Truthy(Field(m, "_id")) ==> r == m
    ensures !Truthy(Field(m, "_id")) ==>
      && Field(r, "_id") == Str(freshId)
      && r.Keys == m.Keys + {"_id"}
      && forall k | k in m && k != "_id" :: r[k] == m[k]
  {
    if Truthy(Field(m, "_id")) then m else m["_id" := Str(freshId)]
  }

  /** Lines 24-25 as written: `onCreate` when the snapshot already had a
      revision, `onUpdate` when it had none. */
  function SaveHook(before: Instance, after: Instance): (e: Event)
    ensures e.OnCreate? || e.OnUpdate?
    ensures e.before == before && e.after == after
    ensures e.OnCreate? <==> Truthy(Field(before, "_rev"))
  {
    if Truthy(Field(before, "_rev")) then OnCreate(before, after) else OnUpdate(before, after)
  }

  /** The selection the hook comments (lines 105-117) describe: `onCreate`
      for a document never saved, `onUpdate` for an existing one. */
  function IntendedSaveHook(before: Instance, after: Instance): (e: Event)
    ensures e.OnCreate? || e.OnUpdate?
    ensures e.before == before && e.after == after
    ensures e.OnCreate? <==> !Truthy(Field(before, "_rev"))
  {
    if Truthy(Field(before, "_rev")) then OnUpdate(before, after) else OnCreate(before, after)
  }

  /** The hook fired as written is always the other one. */
  lemma SaveHookInverted(before: Instance, after: Instance)
    ensures SaveHook(before, after).OnCreate? <==> IntendedSaveHook(before, after).OnUpdate?
    ensures SaveHook(before, after) != IntendedSaveHook(before, after)
  {
  }

  /** `save()`: snapshot, id assignment, insert; on success the promise
      resolves with the driver's reply and then the create-or-update hook
      (selected as written, see `SaveHook`) and `onCreateOrUpdate` fire with
      the pre-save snapshot; on failure it
      rejects with the store's error and no hook fires. The instance keeps
      the id it was given either way; the new revision is not copied into it.
      `freshId` is the uuid generated at line 18, `rev` the revision the
      server assigns. */
  function Save(link: Link, db: Db, m: Instance, freshId: string, rev: string): (r: Step)
    ensures Truthy(Field(m, "_id")) ==> r.instance == m
    ensures !Truthy(Field(m, "_id")) ==> r.instance == m["_id" := Str(freshId)]
    ensures |r.trace| >= 2 && r.trace[0] == StoreCall(InsertCall(r.instance))
    ensures Insert(link, db, r.instance, rev).Failure? ==>
      && r.trace == [StoreCall(InsertCall(r.instance)), Rejected(StoreFailure(Insert(link, db, r.instance, rev).error))]
      && r.db == db
      && NoHooks(r.trace)
    ensures Insert(link, db, r.instance, rev).Success? ==>
      && |r.trace| == 4
      && r.trace[1] == Resolved(Insert(link, db, r.instance, rev).value.reply)
      && (r.trace[2].OnCreate? || r.trace[2].OnUpdate?)
      && r.trace[2].before == m && r.trace[2].after == r.instance
      && (r.trace[2].OnCreate? <==> Truthy(Field(m, "_rev")))
      && r.trace[3] == OnCreateOrUpdate(m, r.instance)
      && r.db == db[Field(r.instance, "_id").s := Stamped(r.instance, rev)]
    ensures WellFormed(db) ==> WellFormed(r.db)
  {
    var before := m;
    var inst := WithId(m, freshId);
    match Insert(link, db, inst, rev)
    case Failure(e) =>
      Step(db, inst, [StoreCall(InsertCall(inst)), Rejected(StoreFailure(e))])
    case Success(w) =>
      Step(w.db, inst, [StoreCall(InsertCall(inst)), Resolved(w.reply), SaveHook(before, inst), OnCreateOrUpdate(before, inst)])
  }

  /** `save()` with the hook selection corrected: the same store, instance
      and trace, except that the hook fired after the promise resolves is
      `onCreate` exactly for a snapshot without a revision. */
  function SaveIntended(link: Link, db: Db, m: Instance, freshId: string, rev: string): (r: Step)
    ensures var w := Save(link, db, m, freshId, rev);
      && r.db == w.db && r.instance == w.instance && |r.trace| == |w.trace|
      && forall i | 0 <= i < |r.trace| && i != 2 :: r.trace[i] == w.trace[i]
    ensures Insert(link, db, r.instance, rev).Success? ==>
      && (r.trace[2].OnCreate? || r.trace[2].OnUpdate?)
      && r.trace[2].before == m && r.trace[2].after == r.instance
      && (r.trace[2].OnCreate? <==> !Truthy(Field(m, "_rev")))
  {
    var w := Save(link, db, m, freshId, rev);
    if |w.trace| == 4 then w.(trace := w.trace[2 := IntendedSaveHook(m, w.instance)]) else w
  }

  /** A new instance (no revision, no id) saved over a healthy link to an
      unused id is created: `onUpdate` fires, as written, and the stored
      document carries every field of the instance. */
  lemma SaveNewInstance(db: Db, m: Instance, freshId: string, rev: string)
    requires WellFormed(db)
    requires "_rev" !in m && !Truthy(Field(m, "_id")) && freshId !in db
    ensures var r := Save(Healthy, db, m, freshId, rev);
      && r.trace[1].Resolved?
      && r.trace[2] == OnUpdate(m, r.instance)
      && freshId in r.db
      && Field(r.db[freshId], "_rev") == Str(rev)
      && forall k | k in m && k != "_id" :: k in r.db[freshId] && r.db[freshId][k] == m[k]
  {
    var inst := WithId(m, freshId);
    assert Field(inst, "_rev") == Undefined;
    assert CurrentRev(db, freshId) == Undefined;
  }

  /** Because save does not copy the new revision into the instance, saving
      the same new instance a second time conflicts: the promise rejects with
      the store's 409 and no hook fires. */
  lemma ResaveConflicts(db: Db, m: Instance, freshId: string, rev: string, freshId2: string, rev2: string)
    requires WellFormed(db)
    requires "_rev" !in m && !Truthy(Field(m, "_id")) && freshId !in db && freshId != ""
    ensures var first := Save(Healthy, db, m, freshId, rev);
      var second := Save(Healthy, first.db, first.instance, freshId2, rev2);
      && second.instance == first.instance
      && second.trace[1] == Rejected(StoreFailure(Conflict))
      && NoHooks(second.trace)
  {
    SaveNewInstance(db, m, freshId, rev);
    var first := Save(Healthy, db, m, freshId, rev);
    assert Field(first.instance, "_id") == Str(freshId);
    assert Field(first.instance, "_rev") == Undefined;
    assert CurrentRev(first.db, freshId) == Str(rev);
  }

  // ---------------------------------------------------------------------
  // delete

  const NotSavedYet := JsError(PlainError, "Document hasn't been saved yet")

  /** `delete()`: without a truthy `_rev` and `_id` it rejects at once and
      calls nothing; otherwise it destroys at the instance's id and revision,
      then resolves and fires `onDelete`, or rejects with the store's error. */
  function Delete(link: Link, db: Db, m: Instance): (r: Step)
    ensures r.instance == m
    ensures !Truthy(Field(m, "_rev")) || !Truthy(Field(m, "_id")) ==>
      r.trace == [Rejected(Thrown(NotSavedYet))] && r.db == db && NoStoreCalls(r.trace)
    ensures Truthy(Field(m, "_rev")) && Truthy(Field(m, "_id")) ==>
      var id, rv := ToJsString(Field(m, "_id")), ToJsString(Field(m, "_rev"));
      && |r.trace| >= 2
      && r.trace[0] == StoreCall(DestroyCall(id, rv))
      && (Destroy(link, db, id, rv).Success? ==>
            r.trace == [r.trace[0], Resolved(Destroy(link, db, id, rv).value.reply), OnDelete(m)]
            && r.db == db - {id})
      && (Destroy(link, db, id, rv).Failure? ==>
            r.trace == [r.trace[0], Rejected(StoreFailure(Destroy(link, db, id, rv).error))]
            && r.db == db && NoHooks(r.trace))
    ensures WellFormed(db) ==> WellFormed(r.db)
  {
    if !Truthy(Field(m, "_rev")) || !Truthy(Field(m, "_id")) then
      Step(db, m, [Rejected(Thrown(NotSavedYet))])
    else
      var id, rv := ToJsString(Field(m, "_id")), ToJsString(Field(m, "_rev"));
      match Destroy(link, db, id, rv)
      case Failure(e) => Step(db, m, [StoreCall(DestroyCall(id, rv)), Rejected(StoreFailure(e))])
      case Success(w) => Step(w.db, m, [StoreCall(DestroyCall(id, rv)), Resolved(w.reply), OnDelete(m)])
  }

  /** A new instance that has just been saved still has no revision, so
      deleting it is refused without a call to the store. */
  lemma DeleteAfterFirstSaveRefused(link: Link, db: Db, m: Instance, freshId: string, rev: string)
    requires "_rev" !in m
    ensures var saved := Save(link, db, m, freshId, rev);
      Delete(link, saved.db, saved.instance).trace == [Rejected(Thrown(NotSavedYet))]
  {
    var saved := Save(link, db, m, freshId, rev);
    assert Field(saved.instance, "_rev") == Undefined;
  }

  /** Deleting a document at its stored revision over a healthy link removes
      it, and `onDelete` is the last event. */
  lemma DeleteStored(db: Db, m: Instance, id: string, rev: string)
    requires WellFormed(db) && id in db && id != "" && rev != ""
    requires Field(m, "_id") == Str(id) && Field(m, "_rev") == Str(rev) && Field(db[id], "_rev") == Str(rev)
    ensures var r := Delete(Healthy, db, m);
      && r.db == db - {id}
      && r.trace[|r.trace| - 1] == OnDelete(m)
  {
  }

  // ---------------------------------------------------------------------
  // static get

  const NotSameType := JsError(PlainError, "Not same type as class")

  /** Static `get(documentId)`: resolves with the fetched body when its `type`
      is the class's type; rejects with the store's error, or with a type
      mismatch. The `!=` is `LooseEquals`: JavaScript's loose comparison for
      `null`, `undefined` and values of one primitive type. */
  function GetTyped(link: Link, db: Db, classType: Value, documentId: string): (trace: seq<Event>)
    ensures |trace| == 2 && trace[0] == StoreCall(GetCall(documentId))
    ensures trace[1].Resolved? <==>
      Get(link, db, documentId).Success? && LooseEquals(Field(db[documentId], "type"), classType)
    ensures trace[1].Resolved? ==> trace[1] == Resolved(Obj(db[documentId]))
    ensures Get(link, db, documentId).Failure? ==>
      trace[1] == Rejected(StoreFailure(Get(link, db, documentId).error))
    ensures Get(link, db, documentId).Success? && !LooseEquals(Field(db[documentId], "type"), classType) ==>
      trace[1] == Rejected(Thrown(NotSameType))
    ensures NoHooks(trace)
  {
    match Get(link, db, documentId)
    case Failure(e) => [StoreCall(GetCall(documentId)), Rejected(StoreFailure(e))]
    case Success(body) =>
      if !LooseEquals(Field(body, "type"), classType) then [StoreCall(GetCall(documentId)), Rejected(Thrown(NotSameType))]
      else [StoreCall(GetCall(documentId)), Resolved(Obj(body))]
  }

  /** The base class defines no `_type`, so its `get` compares against
      `undefined`: a stored document resolves exactly when it has no `type`
      (or a null one), and every typed document is rejected. */
  lemma BaseClassGetsOnlyUntyped(link: Link, db: Db, documentId: string)
    requires Get(link, db, documentId).Success?
    ensures var trace := GetTyped(link, db, Undefined, documentId);
      && (trace[1].Resolved? <==> Nullish(Field(db[documentId], "type")))
      && (Field(db[documentId], "type").Str? ==> trace[1] == Rejected(Thrown(NotSameType)))
  {
  }

  /** A subclass whose `_type` is the string `classType` resolves exactly the
      stored documents whose `type` is that string. */
  lemma SubclassGetsOnlyItsType(link: Link, db: Db, classType: string, documentId: string)
    requires Get(link, db, documentId).Success?
    ensures GetTyped(link, db, Str(classType), documentId)[1].Resolved? <==>
      Field(db[documentId], "type") == Str(classType)
  {
  }

  /** A new instance of type `classType` saved over a healthy link is found by
      the class's get under the generated id, with its fields. */
  lemma SaveThenGet(db: Db, m: Instance, classType: string, freshId: string, rev: string)
    requires WellFormed(db)
    requires "_rev" !in m && !Truthy(Field(m, "_id")) && freshId !in db
    requires Field(m, "type") == Str(classType)
    ensures var saved := Save(Healthy, db, m, freshId, rev);
      var got := GetTyped(Healthy, saved.db, Str(classType), freshId);
      && got[1].Resolved? && got[1].value.Obj?
      && forall k | k in m && k != "_id" :: k in got[1].value.fields && got[1].value.fields[k] == m[k]
  {
    SaveNewInstance(db, m, freshId, rev);
  }

  // ---------------------------------------------------------------------
  // clone and attach

  /** The id `clone()` copies to. */
  const CloneTarget := "newid"

  /** `clone()` as written: copies the document to "newid", but the callback
      tests `!err`, so a successful copy rejects (with the null error) and a
      failed one resolves (with no headers). `reply` is the driver's answer. */
  function Clone(m: Instance, reply: Result<Value, StoreError>): (trace: seq<Event>)
    ensures |trace| == 2 && trace[0] == StoreCall(CopyCall(ToJsString(Field(m, "_id")), CloneTarget))
    ensures reply.Success? ==> trace[1] == Rejected(NullReason)
    ensures reply.Failure? ==> trace[1] == Resolved(Undefined)
  {
    var call := StoreCall(CopyCall(ToJsString(Field(m, "_id")), CloneTarget));
    if reply.Success? then [call, Rejected(NullReason)] else [call, Resolved(Undefined)]
  }

  /** The copy evidently intended: resolve with the headers on success, reject
      with the store's error on failure. */
  function CloneIntended(m: Instance, reply: Result<Value, StoreError>): (trace: seq<Event>)
    ensures |trace| == 2 && trace[0] == StoreCall(CopyCall(ToJsString(Field(m, "_id")), CloneTarget))
    ensures trace[1].Resolved? <==> reply.Success?
    ensures reply.Success? ==> trace[1] == Resolved(reply.value)
    ensures reply.Failure? ==> trace[1] == Rejected(StoreFailure(reply.error))
  {
    var call := StoreCall(CopyCall(ToJsString(Field(m, "_id")), CloneTarget));
    match reply
    case Success(headers) => [call, Resolved(headers)]
    case Failure(e) => [call, Rejected(StoreFailure(e))]
  }

  /** The copy as written settles the other way from the intended one on
      every reply. */
  lemma CloneInverted(m: Instance, reply: Result<Value, StoreError>)
    ensures Clone(m, reply)[0] == CloneIntended(m, reply)[0]
    ensures Clone(m, reply)[1].Resolved? <==> CloneIntended(m, reply)[1].Rejected?
  {
  }

  /** `attach(fileName, contentType, data)`: hands the instance's current id
      and revision to the driver's attachment insert and settles as the
      driver replies. */
  function Attach(m: Instance, fileName: Value, contentType: Value, data: Value, reply: Result<Value, StoreError>)
    : (trace: seq<Event>)
    ensures |trace| == 2
    ensures trace[0].StoreCall? && trace[0].call.AttachmentInsertCall?
    ensures trace[0].call.id == ToJsString(Field(m, "_id")) && trace[0].call.rev == ToJsString(Field(m, "_rev"))
    ensures trace[0].call.name == fileName && trace[0].call.data == data && trace[0].call.contentType == contentType
    ensures reply.Success? <==> trace[1].Resolved?
    ensures reply.Success? ==> trace[1] == Resolved(reply.value)
    ensures reply.Failure? ==> trace[1] == Rejected(StoreFailure(reply.error))
    ensures NoHooks(trace)
  {
    var call := StoreCall(AttachmentInsertCall(ToJsString(Field(m, "_id")), fileName, data, contentType,
                                               ToJsString(Field(m, "_rev"))));
    match reply
    case Success(body) => [call, Resolved(body)]
    case Failure(e) => [call, Rejected(StoreFailure(e))]
  }
}

=== FILE: results.dfy ===
/** Failure-compatible wrappers shared by every module of the model. */
module Results {

  /** An optional value: `None` stands for JavaScript's missing argument. */
  datatype Option<+T> = None | Some(value: T) {

    /** The wrapped value, or `default` when there is none. */
    function GetOr(default: T): T {
      match this
      case Some(v) => v
      case None => default
    }
  }

  /** The outcome of an operation that can throw or reject. */
  datatype Result<+T, +E> = Success(value: T) | Failure(error: E) {

    predicate IsFailure() {
      Failure?
    }

    function PropagateFailure<U>(): Result<U, E>
      requires Failure?
    {
      Failure(error)
    }

    function Extract(): T
      requires Success?
    {
      value
    }
  }
}

=== FILE: setup.dfy ===
/** The `setup(options)` entry point of index.js: validates the options in
    order, then configures the connection and starts view synchronisation. */
module Setup {
  import opened Results
  import opened Js
  import Connection
  import Sync

  /** The two effects of a successful setup, in the order they happen. */
  datatype SetupEffect =
    | ConfigureDb(handle: Connection.Handle)
    | SynchronizeViews(pattern: string)

  datatype SetupRun = SetupRun(connection: Connection.State, effects: seq<SetupEffect>)

  const BlankOptions := JsError(PlainError, "Kubus setup's options can't be blank")

  /** `v` is a non-empty string: what `!v || typeof v !== 'string'` rejects. */
  predicate IsNonEmptyString(v: Value) {
    v.Str? && v.s != ""
  }

  /** Options that pass every check of `setup`. */
  predicate ValidOptions(options: Value) {
    Truthy(options) && IsNonEmptyString(Prop(options, "url")) && IsNonEmptyString(Prop(options, "name"))
  }

  /** `setup(options)`. On a throw nothing else happens; otherwise the
      connection is configured first and the synchronisation runs second. */
  function Setup(options: Value, conn: Connection.State): (r: Result<SetupRun, JsError>)
    ensures r.Success? <==> ValidOptions(options)
    ensures !Truthy(options) ==> r == Failure(BlankOptions)
    ensures Truthy(options) && !IsNonEmptyString(Prop(options, "url")) ==>
      r == Failure(JsError(TypeError, ToJsString(Prop(options, "url")) + " is not a valid url"))
    ensures Truthy(options) && IsNonEmptyString(Prop(options, "url")) && !IsNonEmptyString(Prop(options, "name")) ==>
      r == Failure(JsError(TypeError, ToJsString(Prop(options, "name")) + " is not a valid name"))
    ensures r.Success? ==>
      var c := Connection.Connect(conn, options);
      && r.value.connection == c.state
      && |r.value.effects| == 2
      && r.value.effects[0] == ConfigureDb(c.reply.handle)
      && r.value.effects[0].handle.url == Prop(options, "url")
      && r.value.effects[0].handle.name == Prop(options, "name")
      && r.value.effects[1].SynchronizeViews?
      && Sync.GlobPattern(options) == Success(r.value.effects[1].pattern)
  {
    if !Truthy(options) then Failure(BlankOptions)
    else if !Truthy(Prop(options, "url")) || !Prop(options, "url").Str? then
      Failure(JsError(TypeError, ToJsString(Prop(options, "url")) + " is not a valid url"))
    else if !Truthy(Prop(options, "name")) || !Prop(options, "name").Str? then
      Failure(JsError(TypeError, ToJsString(Prop(options, "name")) + " is not a valid name"))
    else
      var c := Connection.Connect(conn, options);
      var pattern := Sync.GlobPattern(options).value;
      Success(SetupRun(c.state, [ConfigureDb(c.reply.handle), SynchronizeViews(pattern)]))
  }

  /** The url is checked before the name: options with neither report the url. */
  lemma UrlCheckedFirst(options: Value)
    requires Truthy(options) && !IsNonEmptyString(Prop(options, "url"))
    ensures Setup(options, Connection.Initial).Failure?
    ensures Setup(options, Connection.Initial).error.message ==
      ToJsString(Prop(options, "url")) + " is not a valid url"
  {
  }

  /** A successful setup leaves a connection that every later bare request
      for the database receives. */
  lemma SetupThenBareConnect(options: Value, conn: Connection.State)
    requires ValidOptions(options)
    ensures var run := Setup(options, conn).value;
      Connection.Connect(run.connection, Undefined).reply == Connection.Db(run.effects[0].handle)
  {
  }
}

=== FILE: store.dfy ===
/** The document store behind the driver, seen as a map from document id to
    document. Each operation applies CouchDB's revision check as a single
    database would, or fails with the error the transport injects for that
    operation. CouchDB's other document validation is not modelled. */
module Store {
  import opened Results
  import opened Js

  /** A stored or to-be-stored JSON document: its top-level fields. */
  type Doc = map<string, Value>

  /** The database: document id to the document stored under it. */
  type Db = map<string, Doc>

  /** The field `d.key`, undefined when absent. */
  function Field(d: Doc, key: string): Value {
    if key in d then d[key] else Undefined
  }

  /** A failure reported by the driver: an HTTP status and a description. */
  datatype StoreError = StoreError(statusCode: int, description: string)

  const NotFound := StoreError(404, "missing")
  const Conflict := StoreError(409, "Document update conflict.")
  const BadId := StoreError(400, "Document id must be a string")

  /** The transport: for each operation, the failure it reports regardless of
      the database contents (a refused connection, an authorisation error, ...),
      or `None` when it forwards the request. */
  datatype Link = Link(
    getFault: Option<StoreError>,
    insertFault: Option<StoreError>,
    destroyFault: Option<StoreError>)

  const Healthy := Link(None, None, None)

  /** A request made to the driver, recorded in effect traces. */
  datatype Call =
    | GetCall(id: string)
    | InsertCall(doc: Doc)
    | DestroyCall(id: string, rev: string)
    | CopyCall(id: string, newId: string)
    | AttachmentInsertCall(id: string, name: Value, data: Value, contentType: Value, rev: string)

  /** Every stored document carries its own id and a string revision. */
  ghost predicate WellFormed(db: Db) {
    forall id | id in db :: Field(db[id], "_id") == Str(id) && Field(db[id], "_rev").Str?
  }

  /** The revision a write to `id` must quote: the stored one, or none. */
  function CurrentRev(db: Db, id: string): Value {
    if id in db then Field(db[id], "_rev") else Undefined
  }

  /** A successful write: the new database and the driver's reply body. */
  datatype Written = Written(db: Db, reply: Value)

  /** The form in which a written document is kept: its fields with the new revision. */
  function Stamped(doc: Doc, rev: string): (r: Doc)
    ensures Field(r, "_rev") == Str(rev)
    ensures forall k | k in doc && k != "_rev" :: k in r && r[k] == doc[k]
    ensures r.Keys == doc.Keys + {"_rev"}
  {
    doc["_rev" := Str(rev)]
  }

  /** The two stores hold the same ids, and under each id the same document
      up to its revision. */
  ghost predicate SameContent(a: Db, b: Db) {
    && a.Keys == b.Keys
    && forall id | id in a :: a[id] - {"_rev"} == b[id] - {"_rev"}
  }

  /** A document written at two revisions has the same content. */
  lemma StampedSameContent(doc: Doc, rev1: string, rev2: string)
    ensures Stamped(doc, rev1) - {"_rev"} == Stamped(doc, rev2) - {"_rev"}
    ensures Stamped(doc, rev1) == Stamped(doc, rev2) <==> rev1 == rev2
  {
    assert Stamped(doc, rev1)["_rev"] == Str(rev1);
    assert Stamped(doc, rev2)["_rev"] == Str(rev2);
  }

  /** Replacing a stored document by one that differs at most in its
      revision keeps the content. */
  lemma ReplaceSameContent(db: Db, id: string, d: Doc)
    requires id in db && db[id] - {"_rev"} == d - {"_rev"}
    ensures SameContent(db, db[id := d])
    ensures db[id := d] == db <==> db[id] == d
  {
    if db[id := d] == db {
      assert db[id := d][id] == d;
    }
  }

  /** Fetches a document by id. */
  function Get(link: Link, db: Db, id: string): (r: Result<Doc, StoreError>)
    ensures r.Success? <==> link.getFault.None? && id in db
    ensures r.Success? ==> r.value == db[id]
    ensures link.getFault.Some? ==> r == Failure(link.getFault.value)
    ensures link.getFault.None? && id !in db ==> r == Failure(NotFound)
  {
    if link.getFault.Some? then Failure(link.getFault.value)
    else if id !in db then Failure(NotFound)
    else Success(db[id])
  }

  /** Writes a document under its `_id`; `rev` is the fresh revision the
      server assigns. A write must quote the current revision (none for a new id). */
  function Insert(link: Link, db: Db, doc: Doc, rev: string): (r: Result<Written, StoreError>)
    ensures r.Success? <==>
      && link.insertFault.None?
      && Field(doc, "_id").Str?
      && Field(doc, "_rev") == CurrentRev(db, Field(doc, "_id").s)
    ensures r.Success? ==>
      var id := Field(doc, "_id").s;
      && r.value.db == db[id := Stamped(doc, rev)]
      && r.value.reply == Obj(map["ok" := Bool(true), "id" := Str(id), "rev" := Str(rev)])
    ensures link.insertFault.None? && Field(doc, "_id").Str? && !r.Success? ==> r == Failure(Conflict)
    ensures WellFormed(db) && r.Success? ==> WellFormed(r.value.db)
  {
    if link.insertFault.Some? then Failure(link.insertFault.value)
    else if !Field(doc, "_id").Str? then Failure(BadId)
    else
      var id := Field(doc, "_id").s;
      if Field(doc, "_rev") != CurrentRev(db, id) then Failure(Conflict)
      else Success(Written(db[id := Stamped(doc, rev)],
                           Obj(map["ok" := Bool(true), "id" := Str(id), "rev" := Str(rev)])))
  }

  /** Deletes the document `id`, which must be at revision `rev`. */
  function Destroy(link: Link, db: Db, id: string, rev: string): (r: Result<Written, StoreError>)
    ensures r.Success? <==> link.destroyFault.None? && id in db && Field(db[id], "_rev") == Str(rev)
    ensures r.Success? ==> r.value.db == db - {id} && r.value.reply == Obj(map["ok" := Bool(true), "id" := Str(id)])
    ensures link.destroyFault.None? && id !in db ==> r == Failure(NotFound)
    ensures link.destroyFault.None? && id in db && !r.Success? ==> r == Failure(Conflict)
    ensures WellFormed(db) && r.Success? ==> WellFormed(r.value.db)
  {
    if link.destroyFault.Some? then Failure(link.destroyFault.value)
    else if id !in db then Failure(NotFound)
    else if Field(db[id], "_rev") != Str(rev) then Failure(Conflict)
    else Success(Written(db - {id}, Obj(map["ok" := Bool(true), "id" := Str(id)])))
  }
}

=== FILE: sync.dfy ===
/** View synchronisation of view/createAllViews.js: every discovered design
    document replaces the stored one with the same id (get, destroy, insert). */
module Sync {
  import opened Results
  import opened Js
  import opened Store
  import View

  /** How the handling of one design document ends. `InsertFailed` is the
      error thrown from the insert's catch; `Aborted` is the error of the
      get/destroy catch, which the code as written never reaches. */
  datatype Outcome = Created | InsertFailed(err: JsError) | Aborted(err: JsError)

  /** The store after handling one design document, the driver calls made in
      order, and how it ended. */
  datatype Reconciled = Reconciled(db: Db, calls: seq<Call>, outcome: Outcome)

  const UnablePrefix := "Unable to create "

  /** `err` is an `Error` whose message starts by naming the document `id`. */
  predicate NamesDocument(err: JsError, id: string) {
    err.kind == PlainError
    && |err.message| >= |UnablePrefix| + |id|
    && err.message[..|UnablePrefix| + |id|] == UnablePrefix + id
  }

  /** The error thrown on a failed insert: it names the design document. */
  function UnableToCreate(id: string, e: StoreError): (err: JsError)
    ensures NamesDocument(err, id)
  {
    var m := UnablePrefix + id + " \n Error: " + e.description;
    assert m[..|UnablePrefix| + |id|] == UnablePrefix + id;
    JsError(PlainError, m)
  }

  /** `designDocument._id` as the driver's URL and the error messages see it:
      a string id as it is, anything else converted as a template literal
      converts it. */
  function DocId(doc: Doc): string {
    var id := Field(doc, "_id");
    if id.Str? then id.s else ToJsString(id)
  }

  /** A document as `designDocument()` returns it: a string id and no revision. */
  predicate Unsaved(doc: Doc) {
    Field(doc, "_id").Str? && Field(doc, "_rev").Undefined?
  }

  /** Every design document the builder makes is unsaved and carries the
      builder's id. */
  lemma DesignDocumentUnsaved(b: View.ViewBuilder)
    ensures Unsaved(View.DesignDocument(b))
    ensures DocId(View.DesignDocument(b)) == b.docId
  {
  }

  /** A design document written at revision `rev` reads back as the builder's
      registries. */
  lemma StoredDesignDocDecodes(b: View.ViewBuilder, rev: string)
    ensures View.Decode(Stamped(View.DesignDocument(b), rev)) == Some(b.Content())
  {
    View.DecodeEncode(b.Content());
  }

  // ---------------------------------------------------------------------
  // Default folder, suffix and glob pattern

  const DefaultFolder := "dbviews"
  const DefaultSuffix := ".view.js"

  /** `config.key || fallback`, as the text a template literal makes of it. */
  function OptionOr(config: Value, key: string, fallback: string): (s: string)
    ensures !Truthy(Prop(config, key)) ==> s == fallback
    ensures Prop(config, key).Str? && Truthy(Prop(config, key)) ==> s == Prop(config, key).s
  {
    var v := Prop(config, key);
    if Truthy(v) then ToJsString(v) else fallback
  }

  /** The glob pattern createAllViews searches: folder, "/**/*", suffix. A
      null or undefined config makes the property read throw. */
  function GlobPattern(config: Value): (r: Result<string, JsError>)
    ensures r.Failure? <==> config.Undefined? || config.Null?
    ensures r.Failure? ==> r.error.kind == TypeError
    ensures r.Success? ==>
      var folder := OptionOr(config, "viewsFolder", DefaultFolder);
      var suffix := OptionOr(config, "viewsSuffix", DefaultSuffix);
      && |r.value| == |folder| + 5 + |suffix|
      && r.value[..|folder|] == folder
      && r.value[|folder|..|folder| + 5] == "/**/*"
      && r.value[|folder| + 5..] == suffix
  {
    if config.Undefined? || config.Null? then
      Failure(JsError(TypeError, "Cannot read properties of " + ToJsString(config) + " (reading 'viewsFolder')"))
    else
      var folder := OptionOr(config, "viewsFolder", DefaultFolder);
      var suffix := OptionOr(config, "viewsSuffix", DefaultSuffix);
      var p := folder + "/**/*" + suffix;
      assert p[..|folder|] == folder && p[|folder|..|folder| + 5] == "/**/*" && p[|folder| + 5..] == suffix;
      Success(p)
  }

  /** With neither option set (or both falsy) the pattern is the default one. */
  lemma DefaultPattern(config: Value)
    requires !config.Undefined? && !config.Null?
    requires !Truthy(Prop(config, "viewsFolder")) && !Truthy(Prop(config, "viewsSuffix"))
    ensures GlobPattern(config) == Success(DefaultFolder + "/**/*" + DefaultSuffix)
  {
  }

  // ---------------------------------------------------------------------
  // One design document

  /** `createDesignDoc`: inserts the document; a failure becomes an error
      naming the document. */
  function CreateDesignDoc(link: Link, db: Db, doc: Doc, rev: string): (r: Reconciled)
    ensures r.calls == [InsertCall(doc)]
    ensures !Field(doc, "_id").Str? ==> !r.outcome.Created?
    ensures Unsaved(doc) ==>
      (r.outcome.Created? <==> link.insertFault.None? && CurrentRev(db, DocId(doc)).Undefined?)
    ensures r.outcome.Created? ==> r.db == db[DocId(doc) := Stamped(doc, rev)]
    ensures !r.outcome.Created? ==> r.db == db && r.outcome == InsertFailed(r.outcome.err)
    ensures r.outcome.InsertFailed? ==> NamesDocument(r.outcome.err, DocId(doc))
    ensures WellFormed(db) ==> WellFormed(r.db)
  {
    match Insert(link, db, doc, rev)
    case Success(w) => Reconciled(w.db, [InsertCall(doc)], Created)
    case Failure(e) => Reconciled(db, [InsertCall(doc)], InsertFailed(UnableToCreate(DocId(doc), e)))
  }

  /** `handleDesignDoc` as written. The catch at line 26 assigns 404 to the
      status code instead of comparing it, so every failure of the get or the
      destroy falls through to the insert. */
  function HandleDesignDoc(link: Link, db: Db, doc: Doc, rev: string): (r: Reconciled)
    ensures |r.calls| >= 2 && r.calls[0] == GetCall(DocId(doc)) && r.calls[|r.calls| - 1] == InsertCall(doc)
    ensures Get(link, db, DocId(doc)).Failure? ==> r.calls == [GetCall(DocId(doc)), InsertCall(doc)]
    ensures Get(link, db, DocId(doc)).Success? ==>
      var fetched := db[DocId(doc)];
      r.calls == [GetCall(DocId(doc)),
                  DestroyCall(ToJsString(Field(fetched, "_id")), ToJsString(Field(fetched, "_rev"))),
                  InsertCall(doc)]
    ensures !r.outcome.Aborted?
    ensures r.outcome.InsertFailed? ==> NamesDocument(r.outcome.err, DocId(doc))
  {
    match Get(link, db, DocId(doc))
    case Failure(_) =>
      var c := CreateDesignDoc(link, db, doc, rev);
      Reconciled(c.db, [GetCall(DocId(doc))] + c.calls, c.outcome)
    case Success(fetched) =>
      var id, fetchedRev := ToJsString(Field(fetched, "_id")), ToJsString(Field(fetched, "_rev"));
      var afterDestroy := match Destroy(link, db, id, fetchedRev)
        case Success(w) => w.db
        case Failure(_) => db;
      var c := CreateDesignDoc(link, afterDestroy, doc, rev);
      Reconciled(c.db, [GetCall(DocId(doc)), DestroyCall(id, fetchedRev)] + c.calls, c.outcome)
  }

  /** On a well-formed store a successful reconciliation leaves exactly the
      new design document under its id, and over a healthy link it always
      succeeds. */
  lemma HandleDesignDocWrites(link: Link, db: Db, doc: Doc, rev: string)
    requires WellFormed(db) && Unsaved(doc)
    ensures var r := HandleDesignDoc(link, db, doc, rev);
      && WellFormed(r.db)
      && (r.outcome.Created? ==> r.db == db[DocId(doc) := Stamped(doc, rev)])
      && (link == Healthy ==> r.outcome.Created?)
  {
    if DocId(doc) in db && link.getFault.None? {
      FoundThenReplaced(link, db, doc, rev);
    } else {
      var c := CreateDesignDoc(link, db, doc, rev);
      assert HandleDesignDoc(link, db, doc, rev).db == c.db;
      assert HandleDesignDoc(link, db, doc, rev).outcome == c.outcome;
    }
  }

  /** The path where the get finds the stored document. */
  lemma FoundThenReplaced(link: Link, db: Db, doc: Doc, rev: string)
    requires WellFormed(db) && Unsaved(doc)
    requires DocId(doc) in db && link.getFault.None?
    ensures var r := HandleDesignDoc(link, db, doc, rev);
      && WellFormed(r.db)
      && (r.outcome.Created? ==> r.db == db[DocId(doc) := Stamped(doc, rev)])
      && (link == Healthy ==> r.outcome.Created?)
  {
    var id := DocId(doc);
    assert id == Field(doc, "_id").s;
    var fetched := db[id];
    assert ToJsString(Field(fetched, "_id")) == id;
    var rv := ToJsString(Field(fetched, "_rev"));
    assert Field(fetched, "_rev") == Str(rv);
    var r := HandleDesignDoc(link, db, doc, rev);
    var d := Destroy(link, db, id, rv);
    if d.Success? {
      var c := CreateDesignDoc(link, d.value.db, doc, rev);
      assert r.db == c.db && r.outcome == c.outcome;
      assert d.value.db == db - {id};
      assert CurrentRev(db - {id}, id).Undefined?;
      assert (db - {id})[id := Stamped(doc, rev)] == db[id := Stamped(doc, rev)];
    } else {
      var c := CreateDesignDoc(link, db, doc, rev);
      assert r.db == c.db && r.outcome == c.outcome;
      assert CurrentRev(db, id).Str?;
    }
  }

  /** Even a server error on the get (any status but 404) leads to an insert. */
  lemma GetFailureAlwaysInserts(link: Link, db: Db, doc: Doc, rev: string)
    requires link.getFault.Some? && link.getFault.value.statusCode != 404
    ensures InsertCall(doc) in HandleDesignDoc(link, db, doc, rev).calls
    ensures forall id, rv :: DestroyCall(id, rv) !in HandleDesignDoc(link, db, doc, rev).calls
  {
  }

  /** Reconciling twice over a healthy link gives a store with the same
      content as the first run left: the second run finds the document,
      destroys it at the revision the first run wrote, and inserts it again,
      so only its revision changes (and not even that when the server hands
      out the same revision). */
  lemma ReconcileIdempotent(db: Db, doc: Doc, rev: string, rev2: string)
    requires WellFormed(db) && Unsaved(doc)
    ensures var first := HandleDesignDoc(Healthy, db, doc, rev);
      var second := HandleDesignDoc(Healthy, first.db, doc, rev2);
      && first.outcome.Created? && second.outcome.Created?
      && second.calls == [GetCall(DocId(doc)), DestroyCall(DocId(doc), rev), InsertCall(doc)]
      && second.db == first.db[DocId(doc) := Stamped(doc, rev2)]
      && SameContent(first.db, second.db)
      && (second.db == first.db <==> rev2 == rev)
  {
    var id := DocId(doc);
    var stored := Stamped(doc, rev);
    HandleDesignDocWrites(Healthy, db, doc, rev);
    var s1 := HandleDesignDoc(Healthy, db, doc, rev).db;
    assert id in s1 && s1[id] == stored;
    HandleDesignDocWrites(Healthy, s1, doc, rev2);
    assert Get(Healthy, s1, id) == Success(stored);
    assert Field(stored, "_id") == Field(doc, "_id");
    StampedSameContent(doc, rev, rev2);
    ReplaceSameContent(s1, id, Stamped(doc, rev2));
  }

  /** The reconciliation evidently intended: only a 404 leads to an insert;
      any other get or destroy failure aborts with an error naming the document. */
  function HandleDesignDocIntended(link: Link, db: Db, doc: Doc, rev: string): (r: Reconciled)
    ensures |r.calls| > 0 && r.calls[0] == GetCall(DocId(doc))
    ensures Get(link, db, DocId(doc)).Failure? && Get(link, db, DocId(doc)).error.statusCode != 404 ==>
      && r.calls == [GetCall(DocId(doc))]
      && r.db == db
      && r.outcome.Aborted?
      && NamesDocument(r.outcome.err, DocId(doc))
    ensures Get(link, db, DocId(doc)).Failure? && Get(link, db, DocId(doc)).error.statusCode == 404 ==>
      r.calls == [GetCall(DocId(doc)), InsertCall(doc)]
    ensures r.outcome.Aborted? ==> r.db == db && InsertCall(doc) !in r.calls
    ensures !r.outcome.Created? ==> NamesDocument(r.outcome.err, DocId(doc))
  {
    match Get(link, db, DocId(doc))
    case Failure(e) =>
      if e.statusCode == 404 then
        var c := CreateDesignDoc(link, db, doc, rev);
        Reconciled(c.db, [GetCall(DocId(doc))] + c.calls, c.outcome)
      else Reconciled(db, [GetCall(DocId(doc))], Aborted(UnableToCreate(DocId(doc), e)))
    case Success(fetched) =>
      var id, fetchedRev := ToJsString(Field(fetched, "_id")), ToJsString(Field(fetched, "_rev"));
      match Destroy(link, db, id, fetchedRev)
      case Success(w) =>
        var c := CreateDesignDoc(link, w.db, doc, rev);
        Reconciled(c.db, [GetCall(DocId(doc)), DestroyCall(id, fetchedRev)] + c.calls, c.outcome)
      case Failure(e) =>
        if e.statusCode == 404 then
          var c := CreateDesignDoc(link, db, doc, rev);
          Reconciled(c.db, [GetCall(DocId(doc)), DestroyCall(id, fetchedRev)] + c.calls, c.outcome)
        else Reconciled(db, [GetCall(DocId(doc)), DestroyCall(id, fetchedRev)], Aborted(UnableToCreate(DocId(doc), e)))
  }

  /** Where the store answers every get and destroy (a healthy link), the
      intended reconciliation and the one as written agree. */
  lemma IntendedAgreesWhenHealthy(db: Db, doc: Doc, rev: string)
    requires WellFormed(db)
    ensures HandleDesignDocIntended(Healthy, db, doc, rev) == HandleDesignDoc(Healthy, db, doc, rev)
  {
    var id := DocId(doc);
    if id in db {
      var fetched := db[id];
      assert ToJsString(Field(fetched, "_id")) == id;
      var rv := ToJsString(Field(fetched, "_rev"));
      assert Field(fetched, "_rev") == Str(rv);
      assert Destroy(Healthy, db, id, rv).Success?;
    }
  }

  /** The two readings differ on every non-404 get failure: the code as
      written inserts, the intended one aborts without writing. */
  lemma AssignmentBugDiffers(link: Link, db: Db, doc: Doc, rev: string)
    requires link.getFault.Some? && link.getFault.value.statusCode != 404
    ensures |HandleDesignDoc(link, db, doc, rev).calls| == 2
    ensures HandleDesignDocIntended(link, db, doc, rev).calls == [GetCall(DocId(doc))]
    ensures HandleDesignDocIntended(link, db, doc, rev).outcome.Aborted?
    ensures !HandleDesignDoc(link, db, doc, rev).outcome.Aborted?
  {
  }

  // ---------------------------------------------------------------------
  // All discovered design documents

  /** No two design documents share an id. Only then does the order in which
      the unawaited reconciliations run leave the store unchanged: for a shared
      id the program's gets all answer before any write, and its second insert
      conflicts (`SharedIdSecondInsertConflicts`). */
  predicate DistinctIds(docs: seq<Doc>) {
    forall i, j | 0 <= i < j < |docs| :: DocId(docs[i]) != DocId(docs[j])
  }

  /** When two discovered design documents share an id that is not yet stored,
      both gets find nothing, so both go to the insert. Whichever insert the
      server takes first creates the document and the other one conflicts, so
      the second reconciliation fails with an error naming the document. */
  lemma SharedIdSecondInsertConflicts(db: Db, a: Doc, b: Doc, revA: string, revB: string)
    requires WellFormed(db) && Unsaved(a) && Unsaved(b)
    requires DocId(a) == DocId(b) && DocId(a) !in db
    ensures Get(Healthy, db, DocId(a)) == Failure(NotFound)
    ensures var first := CreateDesignDoc(Healthy, db, a, revA);
      && first.outcome.Created?
      && CreateDesignDoc(Healthy, first.db, b, revB).outcome == InsertFailed(UnableToCreate(DocId(b), Conflict))
  {
  }

  /** The handling of every discovered design document, in discovery order. */
  datatype SyncRun = SyncRun(db: Db, calls: seq<Call>, outcomes: seq<Outcome>)

  /** The store with each design document written over it in turn, the
      i-th at revision `revs[i]`. */
  function Overlay(db: Db, docs: seq<Doc>, revs: seq<string>): Db
    requires |revs| == |docs|
    decreases |docs|
  {
    if |docs| == 0 then db
    else Overlay(db[DocId(docs[0]) := Stamped(docs[0], revs[0])], docs[1..], revs[1..])
  }

  /** What the design documents leave in the store when they are written one
      after another; in this sequential reading a later one with the same id
      wins (the program itself does not run them one after another). */
  function WrittenBy(docs: seq<Doc>, revs: seq<string>): Db
    requires |revs| == |docs|
    decreases |docs|
  {
    if |docs| == 0 then map[]
    else map[DocId(docs[0]) := Stamped(docs[0], revs[0])] + WrittenBy(docs[1..], revs[1..])
  }

  /** The loop over discovered files (lines 10-13) as written: each file's
      `designDocument()` is handled in turn by `HandleDesignDoc`, and
      `revs[i]` is the revision the server gives the i-th insert. No document
      aborts; each one not created fails with an insert error naming it. */
  function SyncAll(link: Link, db: Db, docs: seq<Doc>, revs: seq<string>): (r: SyncRun)
    requires |revs| == |docs|
    ensures |r.outcomes| == |docs|
    ensures forall i | 0 <= i < |r.outcomes| ::
      || r.outcomes[i].Created?
      || (r.outcomes[i].InsertFailed? && NamesDocument(r.outcomes[i].err, DocId(docs[i])))
    decreases |docs|
  {
    if |docs| == 0 then SyncRun(db, [], [])
    else
      var first := HandleDesignDoc(link, db, docs[0], revs[0]);
      var rest := SyncAll(link, first.db, docs[1..], revs[1..]);
      SyncRun(rest.db, first.calls + rest.calls, [first.outcome] + rest.outcomes)
  }

  /** The same loop over the corrected reconciliation: each document that is
      not created fails, by abort or insert error, with an error naming it. */
  function SyncAllIntended(link: Link, db: Db, docs: seq<Doc>, revs: seq<string>): (r: SyncRun)
    requires |revs| == |docs|
    ensures |r.outcomes| == |docs|
    ensures forall i | 0 <= i < |r.outcomes| ::
      !r.outcomes[i].Created? ==> NamesDocument(r.outcomes[i].err, DocId(docs[i]))
    decreases |docs|
  {
    if |docs| == 0 then SyncRun(db, [], [])
    else
      var first := HandleDesignDocIntended(link, db, docs[0], revs[0]);
      var rest := SyncAllIntended(link, first.db, docs[1..], revs[1..]);
      SyncRun(rest.db, first.calls + rest.calls, [first.outcome] + rest.outcomes)
  }

  /** Over a healthy link the corrected loop does exactly what the loop as
      written does, for design documents with distinct ids. */
  lemma {:induction false} SyncAllIntendedAgreesWhenHealthy(db: Db, docs: seq<Doc>, revs: seq<string>)
    requires WellFormed(db) && |revs| == |docs|
    requires forall i | 0 <= i < |docs| :: Unsaved(docs[i])
    requires DistinctIds(docs)
    ensures SyncAllIntended(Healthy, db, docs, revs) == SyncAll(Healthy, db, docs, revs)
    decreases |docs|
  {
    if |docs| > 0 {
      IntendedAgreesWhenHealthy(db, docs[0], revs[0]);
      HandleDesignDocWrites(Healthy, db, docs[0], revs[0]);
      SyncAllIntendedAgreesWhenHealthy(HandleDesignDoc(Healthy, db, docs[0], revs[0]).db, docs[1..], revs[1..]);
    }
  }

  /** Over a healthy link every document with its own id is created and the
      store ends as the documents written over it. */
  lemma {:induction false} SyncAllWrites(db: Db, docs: seq<Doc>, revs: seq<string>)
    requires WellFormed(db) && |revs| == |docs|
    requires forall i | 0 <= i < |docs| :: Unsaved(docs[i])
    requires DistinctIds(docs)
    ensures var r := SyncAll(Healthy, db, docs, revs);
      && WellFormed(r.db)
      && r.db == Overlay(db, docs, revs)
      && forall i | 0 <= i < |r.outcomes| :: r.outcomes[i].Created?
    decreases |docs|
  {
    if |docs| > 0 {
      HandleDesignDocWrites(Healthy, db, docs[0], revs[0]);
      var first := HandleDesignDoc(Healthy, db, docs[0], revs[0]);
      SyncAllWrites(first.db, docs[1..], revs[1..]);
    }
  }

  lemma UpdateThenUnion<V>(m: map<string, V>, k: string, v: V, w: map<string, V>)
    ensures m[k := v] + w == m + (map[k := v] + w)
  {
  }

  lemma {:induction false} OverlayIsUnion(db: Db, docs: seq<Doc>, revs: seq<string>)
    requires |revs| == |docs|
    ensures Overlay(db, docs, revs) == db + WrittenBy(docs, revs)
    decreases |docs|
  {
    if |docs| > 0 {
      var v := Stamped(docs[0], revs[0]);
      OverlayIsUnion(db[DocId(docs[0]) := v], docs[1..], revs[1..]);
      UpdateThenUnion(db, DocId(docs[0]), v, WrittenBy(docs[1..], revs[1..]));
    }
  }

  lemma UnionTwice<V>(m: map<string, V>, w: map<string, V>)
    ensures (m + w) + w == m + w
  {
  }

  /** The same documents written at two runs of revisions leave the same
      content. */
  lemma {:induction false} WrittenBySameContent(docs: seq<Doc>, revs1: seq<string>, revs2: seq<string>)
    requires |revs1| == |docs| && |revs2| == |docs|
    ensures SameContent(WrittenBy(docs, revs1), WrittenBy(docs, revs2))
    decreases |docs|
  {
    if |docs| > 0 {
      WrittenBySameContent(docs[1..], revs1[1..], revs2[1..]);
      StampedSameContent(docs[0], revs1[0], revs2[0]);
    }
  }

  lemma UnionSameContent(db: Db, w1: Db, w2: Db)
    requires SameContent(w1, w2)
    ensures SameContent(db + w1, (db + w1) + w2)
  {
  }

  /** Synchronising the same design documents a second time over a healthy
      link leaves a store with the same content as the first run left, and
      the very same store when the server hands out the same revisions. */
  lemma SyncAllIdempotent(db: Db, docs: seq<Doc>, revs1: seq<string>, revs2: seq<string>)
    requires WellFormed(db) && |revs1| == |docs| && |revs2| == |docs|
    requires forall i | 0 <= i < |docs| :: Unsaved(docs[i])
    requires DistinctIds(docs)
    ensures var once := SyncAll(Healthy, db, docs, revs1).db;
      var twice := SyncAll(Healthy, once, docs, revs2).db;
      && SameContent(once, twice)
      && (revs2 == revs1 ==> twice == once)
  {
    var once := SyncAll(Healthy, db, docs, revs1).db;
    SyncAllWrites(db, docs, revs1);
    SyncAllWrites(once, docs, revs2);
    OverlayIsUnion(db, docs, revs1);
    OverlayIsUnion(once, docs, revs2);
    WrittenBySameContent(docs, revs1, revs2);
    UnionSameContent(db, WrittenBy(docs, revs1), WrittenBy(docs, revs2));
    UnionTwice(db, WrittenBy(docs, revs1));
  }

  /** What the documents write, read one after another, holds each document
      under its id at its own new revision, unless a later one shares the id.
      With distinct ids (`DistinctIds`) that is every document; for a shared id
      the program keeps whichever insert the server takes first instead. */
  lemma {:induction false} SyncAllStoresEveryDocument(docs: seq<Doc>, revs: seq<string>, i: nat)
    requires |revs| == |docs| && i < |docs|
    requires forall j | i < j < |docs| :: DocId(docs[j]) != DocId(docs[i])
    ensures DocId(docs[i]) in WrittenBy(docs, revs)
    ensures WrittenBy(docs, revs)[DocId(docs[i])] == Stamped(docs[i], revs[i])
    decreases i
  {
    if i == 0 {
      if |docs| > 1 {
        assert DocId(docs[0]) !in WrittenBy(docs[1..], revs[1..]) by {
          WrittenByKeys(docs[1..], revs[1..]);
        }
      }
    } else {
      SyncAllStoresEveryDocument(docs[1..], revs[1..], i - 1);
    }
  }

  lemma {:induction false} WrittenByKeys(docs: seq<Doc>, revs: seq<string>)
    requires |revs| == |docs|
    ensures forall k :: k in WrittenBy(docs, revs) <==> exists j | 0 <= j < |docs| :: DocId(docs[j]) == k
    decreases |docs|
  {
    if |docs| > 0 {
      WrittenByKeys(docs[1..], revs[1..]);
      forall k | k in WrittenBy(docs, revs)
        ensures exists j | 0 <= j < |docs| :: DocId(docs[j]) == k
      {
        if k != DocId(docs[0]) {
          assert k in WrittenBy(docs[1..], revs[1..]);
          var j :| 0 <= j < |docs[1..]| && DocId(docs[1..][j]) == k;
          assert DocId(docs[j + 1]) == k;
        }
      }
      forall k | exists j | 0 <= j < |docs| :: DocId(docs[j]) == k
        ensures k in WrittenBy(docs, revs)
      {
        var j :| 0 <= j < |docs| && DocId(docs[j]) == k;
        if j > 0 {
          assert DocId(docs[1..][j - 1]) == k;
        }
      }
    }
  }
}

=== FILE: view.dfy ===
/** The design-document builder of view/index.js: three name-keyed registries
    of function sources (views, lists and shows) bundled into one design
    document whose id is derived from the builder's class name. */
module View {
  import opened Results
  import opened Js
  import Store

  /** A registered view: property name to function source. The map lives
      under "map"; a reduce is stored under the key its own source text gives
      (view/index.js:135 indexes by the function, not by "reduce"), and under
      "reduce" in the corrected registration. */
  type ViewEntry = map<string, string>

  /** The content of a design document. */
  datatype DesignDoc = DesignDoc(
    id: string,
    views: map<string, ViewEntry>,
    lists: map<string, string>,
    shows: map<string, string>)

  /** A builder instance: the class name and the registries. */
  datatype ViewBuilder = ViewBuilder(
    docName: string,
    docId: string,
    views: map<string, ViewEntry>,
    lists: map<string, string>,
    shows: map<string, string>)
  {
    /** What the constructor establishes and every registration keeps. */
    predicate Valid() {
      && docId == DesignIdFor(docName)
      && "main" in views && "main" in lists && "main" in shows
    }

    function Content(): DesignDoc {
      DesignDoc(docId, views, lists, shows)
    }
  }

  /** The members `map`, `reduce`, `list` and `show` of the concrete class,
      read by the constructor. */
  datatype ClassMembers = ClassMembers(mapFn: Value, reduceFn: Value, listFn: Value, showFn: Value)

  /** The placeholder methods a class inherits when it defines none. */
  const Placeholders := ClassMembers(
    Fn("map(doc) {}"),
    Fn("reduce(key, values, rereduce) {}"),
    Fn("list(doc, req) {}"),
    Fn("show(head, req) {}"))

  const DesignPrefix := "_design/"
  const Language := "javascript"
  const DefaultName := "main"

  function DesignIdFor(className: string): (id: string)
    ensures |id| == |DesignPrefix| + |className|
    ensures id[..|DesignPrefix|] == DesignPrefix && id[|DesignPrefix|..] == className
  {
    DesignPrefix + className
  }

  // ---------------------------------------------------------------------
  // Function-source normalisation

  predicate IsAsciiLetter(c: char) {
    ('a' <= c <= 'z') || ('A' <= c <= 'Z')
  }

  predicate StartsWithLetter(s: string) {
    |s| > 0 && IsAsciiLetter(s[0])
  }

  /** The length of the longest prefix of `s` made of ASCII letters: what
      `/^[a-z]+()/i` matches (its empty group matches nothing and does not
      change the match). */
  function LetterRunLength(s: string): (n: nat)
    ensures n <= |s|
    ensures forall i | 0 <= i < n :: IsAsciiLetter(s[i])
    ensures n < |s| ==> !IsAsciiLetter(s[n])
  {
    if |s| == 0 || !IsAsciiLetter(s[0]) then 0 else 1 + LetterRunLength(s[1..])
  }

  /** `r` is `s` with its maximal non-empty leading run of ASCII letters
      replaced by the word "function". */
  predicate ReplacedLeadingRun(s: string, r: string) {
    && |r| >= 8 && r[..8] == "function"
    && var k := |s| - (|r| - 8);
       && 0 < k <= |s|
       && (forall i | 0 <= i < k :: IsAsciiLetter(s[i]))
       && (k == |s| || !IsAsciiLetter(s[k]))
       && r[8..] == s[k..]
  }

  /** `_prepareFunctionString`: rewrites the source of a method written in
      shorthand (`map(doc) {...}`) into a function expression by replacing the
      leading word with "function"; a source with no leading letter is kept. */
  function PrepareFunctionString(source: string): (r: string)
    ensures StartsWithLetter(source) ==> ReplacedLeadingRun(source, r)
    ensures !StartsWithLetter(source) ==> r == source
  {
    var n := LetterRunLength(source);
    if n == 0 then source else "function" + source[n..]
  }

  lemma {:induction false} LetterRunOfLetters(p: string, t: string)
    requires forall i | 0 <= i < |p| :: IsAsciiLetter(p[i])
    requires !StartsWithLetter(t)
    ensures LetterRunLength(p + t) == |p|
    decreases |p|
  {
    if |p| > 0 {
      assert (p + t)[1..] == p[1..] + t;
      LetterRunOfLetters(p[1..], t);
    } else {
      assert p + t == t;
    }
  }

  /** Preparing an already prepared source changes nothing. */
  lemma PrepareIdempotent(source: string)
    ensures PrepareFunctionString(PrepareFunctionString(source)) == PrepareFunctionString(source)
  {
    var r := PrepareFunctionString(source);
    if StartsWithLetter(source) {
      var n := LetterRunLength(source);
      assert r == "function" + source[n..];
      LetterRunOfLetters("function", source[n..]);
      assert r[8..] == source[n..];
    }
  }

  /** A source that starts with the word `word` has that word replaced. */
  lemma PrepareWord(word: string, rest: string)
    requires |word| > 0 && forall i | 0 <= i < |word| :: IsAsciiLetter(word[i])
    requires !StartsWithLetter(rest)
    ensures PrepareFunctionString(word + rest) == "function" + rest
  {
    LetterRunOfLetters(word, rest);
    assert (word + rest)[|word|..] == rest;
  }

  // ---------------------------------------------------------------------
  // Registration

  /** `after` is `before` with the entry `key` set and every other entry kept. */
  ghost predicate ReplacesOnly<T>(before: map<string, T>, after: map<string, T>, key: string) {
    && key in after
    && after.Keys == before.Keys + {key}
    && forall k | k in before && k != key :: after[k] == before[k]
  }

  /** The entry registered for map source `mapSource` and reduce argument `reduceFn`. */
  ghost predicate IsViewEntryFor(e: ViewEntry, mapSource: string, reduceFn: Value) {
    match reduceFn
    case Fn(reduceSource) =>
      && e.Keys == {"map", reduceSource}
      && e[reduceSource] == PrepareFunctionString(reduceSource)
      && (reduceSource != "map" ==> e["map"] == PrepareFunctionString(mapSource))
    case _ =>
      e.Keys == {"map"} && e["map"] == PrepareFunctionString(mapSource)
  }

  /** The entry the corrected registration makes: the reduce, when given,
      under "reduce". */
  ghost predicate IsIntendedEntryFor(e: ViewEntry, mapSource: string, reduceFn: Value) {
    && "map" in e && e["map"] == PrepareFunctionString(mapSource)
    && match reduceFn
       case Fn(reduceSource) => e.Keys == {"map", "reduce"} && e["reduce"] == PrepareFunctionString(reduceSource)
       case _ => e.Keys == {"map"}
  }

  function NotAString(what: string): JsError {
    JsError(TypeError, what + " must be a string")
  }

  function NotAFunction(what: string): JsError {
    JsError(TypeError, what + " must be a function")
  }

  /** `registerView(name, map, reduce)`: type-checks its arguments in order and
      sets the view `name`, leaving every other registration as it was. */
  function RegisterView(b: ViewBuilder, name: Value, mapFn: Value, reduceFn: Value): (r: Result<ViewBuilder, JsError>)
    ensures r.Failure? <==> !name.Str? || !mapFn.Fn? || !(reduceFn.Fn? || reduceFn.Undefined?)
    ensures !name.Str? ==> r == Failure(NotAString("name"))
    ensures name.Str? && !mapFn.Fn? ==> r == Failure(NotAFunction("map"))
    ensures name.Str? && mapFn.Fn? && !(reduceFn.Fn? || reduceFn.Undefined?) ==>
      r == Failure(JsError(TypeError, "reduce must be a fuction"))
    ensures r.Success? ==>
      && ReplacesOnly(b.views, r.value.views, name.s)
      && IsViewEntryFor(r.value.views[name.s], mapFn.source, reduceFn)
      && r.value.lists == b.lists && r.value.shows == b.shows
      && r.value.docName == b.docName && r.value.docId == b.docId
    ensures r.Success? && b.Valid() ==> r.value.Valid()
  {
    if !name.Str? then Failure(NotAString("name"))
    else if !mapFn.Fn? then Failure(NotAFunction("map"))
    else if !reduceFn.Fn? && !reduceFn.Undefined? then Failure(JsError(TypeError, "reduce must be a fuction"))
    else
      var mapOnly := map["map" := PrepareFunctionString(mapFn.source)];
      var entry := if reduceFn.Undefined? then mapOnly
                   else mapOnly[reduceFn.source := PrepareFunctionString(reduceFn.source)];
      Success(b.(views := b.views[name.s := entry]))
  }

  /** The registration evidently intended at line 135: the reduce stored under
      the property "reduce", which is where a design document's view keeps it. */
  function RegisterViewIntended(b: ViewBuilder, name: Value, mapFn: Value, reduceFn: Value): (r: Result<ViewBuilder, JsError>)
    ensures r.Failure? <==> !name.Str? || !mapFn.Fn? || !(reduceFn.Fn? || reduceFn.Undefined?)
    ensures !name.Str? ==> r == Failure(NotAString("name"))
    ensures name.Str? && !mapFn.Fn? ==> r == Failure(NotAFunction("map"))
    ensures name.Str? && mapFn.Fn? && !(reduceFn.Fn? || reduceFn.Undefined?) ==>
      r == Failure(JsError(TypeError, "reduce must be a fuction"))
    ensures r.Success? ==>
      && ReplacesOnly(b.views, r.value.views, name.s)
      && IsIntendedEntryFor(r.value.views[name.s], mapFn.source, reduceFn)
      && r.value.lists == b.lists && r.value.shows == b.shows
      && r.value.docName == b.docName && r.value.docId == b.docId
    ensures r.Success? && b.Valid() ==> r.value.Valid()
  {
    if !name.Str? then Failure(NotAString("name"))
    else if !mapFn.Fn? then Failure(NotAFunction("map"))
    else if !reduceFn.Fn? && !reduceFn.Undefined? then Failure(JsError(TypeError, "reduce must be a fuction"))
    else
      var mapOnly := map["map" := PrepareFunctionString(mapFn.source)];
      var entry := if reduceFn.Undefined? then mapOnly
                   else mapOnly["reduce" := PrepareFunctionString(reduceFn.source)];
      Success(b.(views := b.views[name.s := entry]))
  }

  /** The code as written and the intended registration accept the same
      arguments and agree when no reduce is given; with a reduce, the entry as
      written has no "reduce" property at all (unless the reduce's whole
      source text is the word "reduce"), so the stored view never reduces. */
  lemma ReduceKeyFinding(b: ViewBuilder, name: Value, mapFn: Value, reduceFn: Value)
    ensures RegisterView(b, name, mapFn, reduceFn).Success? <==> RegisterViewIntended(b, name, mapFn, reduceFn).Success?
    ensures reduceFn.Undefined? ==> RegisterView(b, name, mapFn, reduceFn) == RegisterViewIntended(b, name, mapFn, reduceFn)
    ensures RegisterView(b, name, mapFn, reduceFn).Success? && reduceFn.Fn? && reduceFn.source != "reduce" ==>
      && "reduce" !in RegisterView(b, name, mapFn, reduceFn).value.views[name.s]
      && "reduce" in RegisterViewIntended(b, name, mapFn, reduceFn).value.views[name.s]
  {
  }

  /** The registration shared by `registerList` and `registerShow`. */
  function RegisterSource(registry: map<string, string>, what: string, name: Value, fn: Value)
    : (r: Result<map<string, string>, JsError>)
    ensures r.Failure? <==> !name.Str? || !fn.Fn?
    ensures !name.Str? ==> r == Failure(NotAString("name"))
    ensures name.Str? && !fn.Fn? ==> r == Failure(NotAFunction(what))
    ensures r.Success? ==>
      ReplacesOnly(registry, r.value, name.s) && r.value[name.s] == PrepareFunctionString(fn.source)
  {
    if !name.Str? then Failure(NotAString("name"))
    else if !fn.Fn? then Failure(NotAFunction(what))
    else Success(registry[name.s := PrepareFunctionString(fn.source)])
  }

  /** `registerList(name, list)`. */
  function RegisterList(b: ViewBuilder, name: Value, listFn: Value): (r: Result<ViewBuilder, JsError>)
    ensures r.Failure? <==> !name.Str? || !listFn.Fn?
    ensures !name.Str? ==> r == Failure(NotAString("name"))
    ensures name.Str? && !listFn.Fn? ==> r == Failure(NotAFunction("list"))
    ensures r.Success? ==>
      && ReplacesOnly(b.lists, r.value.lists, name.s)
      && r.value.lists[name.s] == PrepareFunctionString(listFn.source)
      && r.value.views == b.views && r.value.shows == b.shows
      && r.value.docName == b.docName && r.value.docId == b.docId
    ensures r.Success? && b.Valid() ==> r.value.Valid()
  {
    var lists :- RegisterSource(b.lists, "list", name, listFn);
    Success(b.(lists := lists))
  }

  /** `registerShow(name, show)`. */
  function RegisterShow(b: ViewBuilder, name: Value, showFn: Value): (r: Result<ViewBuilder, JsError>)
    ensures r.Failure? <==> !name.Str? || !showFn.Fn?
    ensures !name.Str? ==> r == Failure(NotAString("name"))
    ensures name.Str? && !showFn.Fn? ==> r == Failure(NotAFunction("show"))
    ensures r.Success? ==>
      && ReplacesOnly(b.shows, r.value.shows, name.s)
      && r.value.shows[name.s] == PrepareFunctionString(showFn.source)
      && r.value.views == b.views && r.value.lists == b.lists
      && r.value.docName == b.docName && r.value.docId == b.docId
    ensures r.Success? && b.Valid() ==> r.value.Valid()
  {
    var shows :- RegisterSource(b.shows, "show", name, showFn);
    Success(b.(shows := shows))
  }

  /** The constructor: derives the design-document id from the class name and
      registers the class's `map`/`reduce`, `list` and `show` under "main".
      It throws exactly when one of those registrations does, with the
      first failing one's error. */
  function NewView(className: string, members: ClassMembers): (r: Result<ViewBuilder, JsError>)
    ensures r.Success? <==>
      members.mapFn.Fn? && (members.reduceFn.Fn? || members.reduceFn.Undefined?)
      && members.listFn.Fn? && members.showFn.Fn?
    ensures !members.mapFn.Fn? ==> r == Failure(NotAFunction("map"))
    ensures members.mapFn.Fn? && !(members.reduceFn.Fn? || members.reduceFn.Undefined?) ==>
      r == Failure(JsError(TypeError, "reduce must be a fuction"))
    ensures members.mapFn.Fn? && (members.reduceFn.Fn? || members.reduceFn.Undefined?) && !members.listFn.Fn? ==>
      r == Failure(NotAFunction("list"))
    ensures members.mapFn.Fn? && (members.reduceFn.Fn? || members.reduceFn.Undefined?)
      && members.listFn.Fn? && !members.showFn.Fn?
      ==> r == Failure(NotAFunction("show"))
    ensures r.Success? ==>
      && r.value.Valid()
      && r.value.docName == className
      && r.value.docId == DesignPrefix + className
      && r.value.views.Keys == {DefaultName}
      && IsViewEntryFor(r.value.views[DefaultName], members.mapFn.source, members.reduceFn)
      && r.value.lists == map[DefaultName := PrepareFunctionString(members.listFn.source)]
      && r.value.shows == map[DefaultName := PrepareFunctionString(members.showFn.source)]
  {
    var empty := ViewBuilder(className, DesignIdFor(className), map[], map[], map[]);
    var withView :- RegisterView(empty, Str(DefaultName), members.mapFn, members.reduceFn);
    var withList :- RegisterList(withView, Str(DefaultName), members.listFn);
    RegisterShow(withList, Str(DefaultName), members.showFn)
  }

  /** The constructor over the corrected registration: it fails exactly as
      the one as written does and builds the same builder, except that the
      main view keeps its reduce under "reduce". */
  function NewViewIntended(className: string, members: ClassMembers): (r: Result<ViewBuilder, JsError>)
    ensures r.Failure? <==> NewView(className, members).Failure?
    ensures r.Failure? ==> r == NewView(className, members)
    ensures r.Success? ==>
      var w := NewView(className, members).value;
      && r.value.Valid()
      && r.value == w.(views := r.value.views)
      && r.value.views.Keys == {DefaultName}
      && IsIntendedEntryFor(r.value.views[DefaultName], members.mapFn.source, members.reduceFn)
  {
    var empty := ViewBuilder(className, DesignIdFor(className), map[], map[], map[]);
    var withView :- RegisterViewIntended(empty, Str(DefaultName), members.mapFn, members.reduceFn);
    var withList :- RegisterList(withView, Str(DefaultName), members.listFn);
    RegisterShow(withList, Str(DefaultName), members.showFn)
  }

  /** A class that defines none of the four members gets a main view whose map
      is the placeholder rewritten to a function expression, and whose reduce
      placeholder is stored under its own source text: the view has no
      "reduce" property. */
  lemma PlaceholderView(className: string)
    ensures NewView(className, Placeholders).Success?
    ensures var e := NewView(className, Placeholders).value.views[DefaultName];
      && e.Keys == {"map", "reduce(key, values, rereduce) {}"}
      && e["map"] == "function" + "(doc) {}"
      && e["reduce(key, values, rereduce) {}"] == "function" + "(key, values, rereduce) {}"
  {
    PlaceholderSources();
    var r := NewView(className, Placeholders);
    assert IsViewEntryFor(r.value.views[DefaultName], Placeholders.mapFn.source, Placeholders.reduceFn);
  }

  lemma PlaceholderSources()
    ensures PrepareFunctionString("map(doc) {}") == "function" + "(doc) {}"
    ensures PrepareFunctionString("reduce(key, values, rereduce) {}") == "function" + "(key, values, rereduce) {}"
  {
    assert "map(doc) {}" == "map" + "(doc) {}";
    assert "reduce(key, values, rereduce) {}" == "reduce" + "(key, values, rereduce) {}";
    PrepareWord("map", "(doc) {}");
    PrepareWord("reduce", "(key, values, rereduce) {}");
  }

  // ---------------------------------------------------------------------
  // The design document

  function StrFields(m: map<string, string>): map<string, Value> {
    map k | k in m :: Str(m[k])
  }

  predicate AllStr(fields: map<string, Value>) {
    forall k | k in fields :: fields[k].Str?
  }

  function Strings(fields: map<string, Value>): map<string, string>
    requires AllStr(fields)
  {
    map k | k in fields :: fields[k].s
  }

  predicate IsStrObj(v: Value) {
    v.Obj? && AllStr(v.fields)
  }

  predicate AllStrObj(fields: map<string, Value>) {
    forall k | k in fields :: IsStrObj(fields[k])
  }

  /** The JSON object `designDocument()` returns. */
  function Encode(d: DesignDoc): Store.Doc {
    map[
      "_id" := Str(d.id),
      "language" := Str(Language),
      "views" := Obj(map n | n in d.views :: Obj(StrFields(d.views[n]))),
      "lists" := Obj(StrFields(d.lists)),
      "shows" := Obj(StrFields(d.shows))]
  }

  /** Reads a design document back from a stored JSON object; fields other
      than the five it names (such as `_rev`) are ignored. */
  function Decode(doc: Store.Doc): Option<DesignDoc> {
    var id := Store.Field(doc, "_id");
    var views := Store.Field(doc, "views");
    var lists := Store.Field(doc, "lists");
    var shows := Store.Field(doc, "shows");
    if id.Str? && Store.Field(doc, "language") == Str(Language)
       && views.Obj? && AllStrObj(views.fields) && IsStrObj(lists) && IsStrObj(shows)
    then Some(DesignDoc(id.s,
                        map n | n in views.fields :: Strings(views.fields[n].fields),
                        Strings(lists.fields),
                        Strings(shows.fields)))
    else None
  }

  lemma StringsOfStrFields(m: map<string, string>)
    ensures AllStr(StrFields(m)) && Strings(StrFields(m)) == m
  {
  }

  /** Decoding recovers exactly the encoded design document. */
  lemma DecodeEncode(d: DesignDoc)
    ensures Decode(Encode(d)) == Some(d)
  {
    var doc := Encode(d);
    var vs := map n | n in d.views :: Obj(StrFields(d.views[n]));
    forall n | n in d.views {
      StringsOfStrFields(d.views[n]);
    }
    assert AllStrObj(vs);
    var back := map n | n in vs :: Strings(vs[n].fields);
    assert back == d.views;
    StringsOfStrFields(d.lists);
    StringsOfStrFields(d.shows);
  }

  /** `designDocument()`: the builder's id, the language and exactly its three
      registries, as a JSON object. */
  function DesignDocument(b: ViewBuilder): (doc: Store.Doc)
    ensures doc.Keys == {"_id", "language", "views", "lists", "shows"}
    ensures doc["_id"] == Str(b.docId) && doc["language"] == Str(Language)
    ensures Decode(doc) == Some(DesignDoc(b.docId, b.views, b.lists, b.shows))
  {
    DecodeEncode(b.Content());
    Encode(b.Content())
  }

  // ---------------------------------------------------------------------
  // Key queries

  /** The request a query hands to the driver's `view`. */
  datatype ViewRequest = ViewRequest(designId: string, viewName: Value, params: map<string, Value>)

  /** `params` holds the caller's options, plus `param := value` where the
      caller did not set `param` itself. */
  ghost predicate CallerWins(param: string, value: Value, options: map<string, Value>, params: map<string, Value>) {
    && params.Keys == options.Keys + {param}
    && (forall k | k in options :: params[k] == options[k])
    && (param !in options ==> params[param] == value)
  }

  /** `Object.assign({param: value}, options)`, with an omitted options object read as `{}`. */
  function MergeOptions(param: string, value: Value, options: Option<map<string, Value>>): (params: map<string, Value>)
    ensures CallerWins(param, value, options.GetOr(map[]), params)
  {
    map[param := value] + options.GetOr(map[])
  }

  /** An omitted (undefined) view name defaults to "main". */
  function ViewNameOrMain(viewName: Value): (v: Value)
    ensures viewName.Undefined? ==> v == Str(DefaultName)
    ensures !viewName.Undefined? ==> v == viewName
  {
    if viewName.Undefined? then Str(DefaultName) else viewName
  }

  /** `getKey(key, viewName, options)`. */
  function GetKey(b: ViewBuilder, key: Value, viewName: Value, options: Option<map<string, Value>>): (r: ViewRequest)
    ensures r.designId == b.docId
    ensures r.viewName == (if viewName.Undefined? then Str(DefaultName) else viewName)
    ensures CallerWins("key", key, options.GetOr(map[]), r.params)
  {
    ViewRequest(b.docId, ViewNameOrMain(viewName), MergeOptions("key", key, options))
  }

  /** `getKeys(keys, viewName, options)`. */
  function GetKeys(b: ViewBuilder, keys: Value, viewName: Value, options: Option<map<string, Value>>): (r: ViewRequest)
    ensures r.designId == b.docId
    ensures r.viewName == (if viewName.Undefined? then Str(DefaultName) else viewName)
    ensures CallerWins("keys", keys, options.GetOr(map[]), r.params)
  {
    ViewRequest(b.docId, ViewNameOrMain(viewName), MergeOptions("keys", keys, options))
  }
}
